=== FILE: README.md ===
# CHAT-v1 in Dafny

A Dafny model of the real-time core of CHAT-v1, a Django / Channels chat and call-signalling
application. The model covers:

- the websocket consumer `ChatConsumer` (`chatapp/consumers.py`) as a sequential state machine
  over one global hub, which holds:
  - the presence map `ONLINE` (room → usernames);
  - the channel layer's groups (group name → channels);
  - one outbox of sent frames per connection;
  - the database;
- the database schema (`chatapp/models.py`): rows, the constraints PostgreSQL enforces on every
  INSERT, and the cascade / set-null rules applied on delete;
- the media upload endpoint (`chatapp/views_media.py`);
- the chunked upload endpoint (`chatapp/views_upload.py`);
- the room page's history window, the staff check and the staff dashboard (`chatapp/views.py`).

Every transition is a pure function, and every one is total except `MediaUpload.UploadMedia`,
which requires that the storage's alternative name be free whenever the wanted name is taken
(the storage guarantees this of the name it picks). Errors the Python code raises become values:
`PyError` in `Base`, `Outcome.Raised` in the consumer, 4xx/5xx responses in the views. The
invariants (`Models.Valid` for the store, `ConsumerProps.Valid` for the hub) are proved to be
preserved in separate lemmas.

Files, in dependency order:

| file | module | contents |
|---|---|---|
| base.dfy | Base | `Option`, `Result`, `PyError`, `byte`, `Min` |
| json.dfy | Json | decoded JSON values and the Python truthiness and `dict.get` the code relies on |
| seqs.dfy | Seqs | filtering, ordering by a key, and the `order_by("-key")[:n]` window |
| models.dfy | Models | rows, the store, its invariant, creates and deletes |
| consumer.dfy | Consumer | the hub, `connect`, `disconnect`, `receive`, the receiving handlers, `_save_message` |
| consumer_props.dfy | ConsumerProps | the hub invariant and the properties of each kind of event |
| media_upload.dfy | MediaUpload | `upload_media` |
| chunk_upload.dfy | ChunkUpload | `chunk_upload` |
| views.dfy | Views | `chat_room`, `is_admin`, `admin_create_user` |

Modelling choices that shape the contracts:

- **Groups.** A group is a set of channels. A broadcast appends the receiving handler's frame to
  the outbox of every *live* member, that is, a member whose consumer is accepted and not yet
  disconnected.
- **Disconnect.** `disconnect` runs after the consumer has stopped handling events. Its own
  `user_leave` therefore reaches the other members but not the leaver.
- **Presence list.** `online_list` carries a set, because the code lists a Python set, whose
  order is unspecified.
- **Decoded frames.** Inbound frames are already decoded:
  - `NoText` is an absent or empty frame, which the code turns into `{}`;
  - `Malformed` is text `json.loads` rejects;
  - `Parsed(v)` is any other JSON value, dict or not.
- **Text columns.** Text columns hold the JSON value the code hands to the ORM:
  - a null in a NOT NULL column fails the INSERT with a `DatabaseError`;
  - so does a string wider than its `varchar`;
  - non-string values are stored as given (see Left out).
- **No transaction.** `_save_message` writes the Message, then each MediaFile, with no
  transaction. A failure part-way leaves the rows already written.
- **Ids.** One counter hands out primary keys for every table.
- **Files.** The media root is a map from a relative path to its bytes.
- **Environment values.** What the upload views take from the environment is passed in as a
  parameter:
  - the MIME type guessed from the file name;
  - the `strftime` stamp of the current time;
  - the name the storage picks when the wanted one is taken.

Notable behaviours of the code that the model reproduces as written:

- **Malformed frames raise.** A frame that is not valid JSON raises `JSONDecodeError` out of
  `receive`; it is not dropped as an empty event (`consumers.py:68`). `Receive` returns
  `Raised(JsonDecodeError)`.
- **`reply_to` is not stored.** `reply_to` is broadcast but never persisted, because
  `_save_message` takes no reply argument (`consumers.py:136-145`).
- **Persistence failures propagate.** A failure inside `_save_message` is neither logged nor
  swallowed: the exception ends `receive`. The broadcast that preceded it stands.
- **Presence is keyed by username.** Two connections of one user share one entry, and the first
  disconnect removes it (`consumers.py:32`, `50-51`).
- **Some room names cannot be joined.** The group name is `chat_` plus the room name, and the
  channel layer refuses a group name of 100 characters or more, or one holding anything but
  ASCII letters, digits, `-`, `_` and `.`. For such a room `connect` raises TypeError at
  `group_add` (`consumers.py:28`), before the connection is accepted and before the presence
  set changes. `disconnect` on such a room raises at its first group operation.

## Model

| member | source | states |
|---|---|---|
| Models.FindRoom | chatapp/consumers.py:194 | the lookup half of `get_or_create(name=...)`: it finds a stored room with that name whenever one exists, and reports none only when no stored room has the name |
| Models.FindUser | chatapp/consumers.py:193 | `User.objects.filter(username=...).first()`: the id of a stored account with that username, or none only when no account has it |
| Models.GetOrCreateRoom | chatapp/models.py:7-8 | get_or_create by name succeeds iff a name is given and a room of that name exists or the name fits 255 characters. It returns a room with that name, writes nothing when one exists, creates exactly one room otherwise, and leaves the store unchanged on failure |
| Models.GetOrCreateRoomIdempotent | chatapp/models.py:7-8 | asking again returns the same room and writes nothing; the room returned is the only one with its name |
| Models.GetOrCreateRoomValid | chatapp/models.py:7-9 | get_or_create keeps every schema guarantee (unique ids, unique room names, widths, foreign keys) |
| Models.CreateMessage | chatapp/models.py:15-20 | a Message INSERT succeeds iff content is not null, the room exists and the author (when given) exists; on success exactly that row is appended, on failure nothing changes |
| Models.CreateMessageValid | chatapp/models.py:15-20 | creating a message keeps the schema guarantees |
| Models.CreateMediaFile | chatapp/models.py:29-45 | a MediaFile INSERT succeeds iff the message exists, no column is null, and media_type, name and duration, when strings, fit 20, 255 and 20 characters |
| Models.CreateMediaFileValid | chatapp/models.py:29-45 | creating a media file keeps the schema guarantees |
| Models.CreateRecording | chatapp/models.py:50-63 | a CallRecording INSERT succeeds iff caller and receiver fit 150 characters, room_name is null or fits 150, and duration is null or a 32-bit integer; the new row carries the next id and exactly the given caller, receiver, room name, file URL and duration, has no end time, starts when it is created, and is the only change to the store |
| Models.CreateRecordingValid | chatapp/models.py:50-63 | creating a recording keeps the schema guarantees |
| Models.CreateUser | chatapp/views.py:65-71 | creating an account succeeds iff the username is non-empty, at most 150 characters and not taken; the new account carries exactly the submitted staff and superuser flags; an empty name raises ValueError |
| Models.CreateUserValid | chatapp/views.py:65-71 | creating an account keeps the schema guarantees, including unique usernames |
| Models.DeleteMessage | chatapp/models.py:33 | deleting a message removes it and exactly the media files that point at it |
| Models.DeleteMessageValid | chatapp/models.py:33 | after deleting a message no media file is left pointing at a missing message |
| Models.DeleteRoom | chatapp/models.py:16-33 | deleting a room removes it, exactly its messages, and the media files of those messages |
| Models.DeleteRoomValid | chatapp/models.py:16-33 | after deleting a room no message or media file dangles |
| Models.DeleteUser | chatapp/models.py:17 | deleting a user keeps every message in place, sets the author of that user's messages to null and changes nothing else about any message |
| Models.DeleteUserValid | chatapp/models.py:17 | after deleting a user the store is valid and the set of message ids is unchanged |
| Seqs.NewestFirst | chatapp/views.py:80-90 | `order_by("-key")[:cap]` returns min(cap, n) of the rows, largest key first, and no row left out has a larger key than any row kept |
| Consumer.Deliver | chatapp/consumers.py:151-186 | each receiving handler sends at most one frame. It sends nothing exactly when a typing event is the receiver's own. Presence and signal events are relayed verbatim. A chat message carries its text, author and attachments, and includes `reply_to` iff it is truthy |
| Consumer.Broadcast | chatapp/consumers.py:119-124 | a group send changes only outboxes: each live member of the room's group gets its handler's frame appended; every other outbox is unchanged |
| Consumer.Join | chatapp/consumers.py:28-45 | once `group_add` succeeds, the session map is the old one with this connection set to the user, the room and open; the connection is in the room's group, the user is added to the room's presence set, and no other room's presence or group changes |
| Consumer.JoinOutboxes | chatapp/consumers.py:34-45 | the joining connection gets the presence list (including itself) followed by its own `user_join`; every other live member of the room gets `user_join`; no other outbox changes |
| Consumer.Connect | chatapp/consumers.py:18-45 | the session map is the old one with this connection recorded for the user and room (no other session changes). An anonymous user is recorded as closed and changes no presence, group or outbox. For an authenticated user, connect raises TypeError iff the room's group name is refused; it then stays closed and changes no presence, group or outbox. Otherwise the connection joins as `Consumer.Join` states |
| ConsumerProps.JoinableRoom | chatapp/consumers.py:20-28 | `group_add` accepts `chat_<room>` iff the room name has fewer than 95 characters, all ASCII letters, digits, `-`, `_` or `.`, except that the last may be a newline, which the `$` of the layer's pattern lets through |
| Consumer.Disconnect | chatapp/consumers.py:47-59 | the connection stops being live and its username leaves the room's presence set; every other room's presence and every other connection's liveness are untouched. It raises TypeError iff the room's group name is refused, and then no group and no outbox changes; otherwise the channel leaves the group |
| Consumer.DisconnectOutboxes | chatapp/consumers.py:50-57 | the leaver's own outbox is untouched; every other live member of the room gets `user_leave` iff the name was present and the group name is accepted; no other outbox changes |
| Consumer.Decode | chatapp/consumers.py:68 | `json.loads(text_data or "{}")`: no text yields the empty object, JSON text yields its value, and only text that is not JSON raises JSONDecodeError |
| Consumer.MediaAttachment | chatapp/consumers.py:112-117 | the media branch's attachment has exactly the keys type, url, name and duration; the columns later saved from it are media_url, media_type as given (null included, never the "file" default) and name and duration defaulting to "" |
| Consumer.Classify | chatapp/consumers.py:75-146 | first match wins: a signal type, then typing, then media, then a text frame iff `message` or `attachments` is truthy, otherwise the frame is dropped without an error: every dict whose `type` is hashable is dispatched to exactly one branch. A non-dict raises AttributeError and an unhashable `type` raises TypeError |
| Consumer.Receive | chatapp/consumers.py:61-80 | receive never changes presence, groups or sessions. A connection that is not live does nothing. A malformed frame raises JSONDecodeError with nothing changed. An empty frame changes nothing. A parsed frame that is not an object (no `.get`), or whose `type` is unhashable, raises the error classification reports (AttributeError or TypeError) with the hub unchanged |
| Consumer.Handle | chatapp/consumers.py:80-146 | no branch of receive touches presence, groups or sessions |
| Consumer.Iterate | chatapp/consumers.py:204 | `for att in attachments or []` walks the list items; a falsy value walks nothing; it fails iff the value is truthy and not a list, with AttributeError for a string or object (no `.get` on its items or keys) and TypeError for a number or `true` (not iterable) |
| Consumer.SpecOf | chatapp/consumers.py:205-211 | the MediaFile columns of one attachment dict: its url (None when absent), its type defaulting to "file", and its name and duration defaulting to "" |
| Consumer.SaveMedia | chatapp/consumers.py:203-212 | the media loop only appends media rows, all pointing at the message, at most one per item, and raises only AttributeError or DatabaseError |
| Consumer.SaveMediaRows | chatapp/consumers.py:204-212 | the rows written are a prefix of the url-bearing attachments' columns (type defaulting to "file", name and duration to ""), and all of them when the loop finishes |
| Consumer.SaveMediaOutcome | chatapp/consumers.py:204-212 | the loop finishes iff every item is a dict, every url-bearing item's columns fit, and the message exists when there is such an item |
| Consumer.WriteMessage | chatapp/consumers.py:196-212 | exactly one Message is appended, with content `content or ""` and attachments `attachments or []`, and its media rows point at it. It completes iff `attachments or []` can be walked and every item is a dict whose url-bearing columns fit; then its media rows match the url-bearing attachments. A walk that fails raises the walk's error; any failure is AttributeError, TypeError or a database error |
| Consumer.WriteMessageRunsLoop | chatapp/consumers.py:196-212 | once the Message row is in, the rest of `_save_message` is exactly the attachment loop, run for the new message's id over the walked items |
| Consumer.SaveMessage | chatapp/consumers.py:191-214 | `_save_message` appends one Message iff the room exists or its name fits; otherwise it raises a database error with nothing changed. The row's author is the user of that name (or null), it lies in the room of that name, and it carries `content or ""` and `attachments or []`. It completes iff the room can be written, the attachments can be walked and every item is a dict whose url-bearing columns fit; then its media rows are exactly the url-bearing attachments. A walk that fails raises the walk's error; any failure is AttributeError, TypeError or a database error |
| ConsumerProps.ConnectValid | chatapp/consumers.py:18-45 | connecting a connection that is not live keeps the hub invariant: group members are live consumers of the group's room, in a group whose name the layer accepts, and live consumers are authenticated members of their room's group |
| ConsumerProps.RefusedRoomConnect | chatapp/consumers.py:28 | an authenticated user connecting to a room whose group name is refused gets TypeError, is not live, and changes no presence, group or outbox |
| ConsumerProps.LiveRoomIsValid | chatapp/consumers.py:28-29 | under the hub invariant, a live connection's room has an accepted group name, since acceptance comes after `group_add` |
| ConsumerProps.LiveDisconnectSucceeds | chatapp/consumers.py:47-59 | under the hub invariant, disconnecting a live connection never raises |
| ConsumerProps.ConnectWired | chatapp/consumers.py:18-45 | connecting keeps group membership and liveness in step |
| ConsumerProps.DisconnectShape | chatapp/consumers.py:47-59 | disconnect closes the session, discards the channel from its room's group when it does not raise, and changes no other membership |
| ConsumerProps.DisconnectWired | chatapp/consumers.py:47-59 | disconnecting keeps group membership and liveness in step |
| ConsumerProps.DisconnectValid | chatapp/consumers.py:47-59 | disconnecting keeps the hub invariant |
| ConsumerProps.DisconnectedHearsNothing | chatapp/consumers.py:59 | after disconnect the channel is in no group, and no later broadcast to any room reaches it |
| ConsumerProps.SharedPresenceEntry | chatapp/consumers.py:28-59 | two connections of one user share one presence entry: the first disconnect removes the name while the second connection is still live and in the group, and that connection hears `user_leave` for its own user |
| ConsumerProps.SignalTakesPriority | chatapp/consumers.py:75-88 | a frame whose type is one of the eight signal types is relayed to every live member with `from` overwritten by the sender, whatever else it holds; nothing is persisted and no one else hears anything |
| ConsumerProps.TypingNotEchoed | chatapp/consumers.py:93-167 | a typing frame reaches every live member whose username differs from the sender's, no connection of the sender's own username, and no connection outside the room's live members; nothing is persisted |
| ConsumerProps.MediaEventPersistsOneMessage | chatapp/consumers.py:103-127 | a media frame builds one attachment from media_type / media_url with name and duration defaulting to "". Every live member of the room, and no other connection, gets a message with empty text and that attachment; the store and the outcome are exactly those of `_save_message` of the sender's room with content "" and that one-element attachment list |
| ConsumerProps.MediaEventRow | chatapp/consumers.py:103-214 | a media frame stores one Message iff the room can be written (it exists, or its name fits the name column); that Message has empty content, the one attachment, the sender's account (if any) as author and the sender's room; at most one media row is added |
| ConsumerProps.TextEventIff | chatapp/consumers.py:132-146 | a non-signal, non-typing, non-media frame is broadcast iff `message` or `attachments` is truthy; otherwise nothing at all changes. When broadcast, it reaches the room's live members and no other connection, the store and outcome are exactly those of `_save_message` of the sender's room with the frame's `message` and `attachments`, and one Message is stored iff the room can be written |
| ConsumerProps.EmptyAndMalformedFrames | chatapp/consumers.py:68 | an empty frame is the empty object and is dropped without any change; a malformed one raises with no change |
| ConsumerProps.ReplyToNotPersisted | chatapp/consumers.py:136-145 | adding `reply_to` to a frame changes neither the stored rows nor the outcome |
| ConsumerProps.ReceiveStoreStep | chatapp/consumers.py:61-146 | a receive step leaves the store alone unless a live connection sends a media or text frame; then store and outcome are exactly one `_save_message` of the sender's room with that branch's own values ("" and the one media attachment, or the frame's `message` and `attachments`), at least one of them truthy |
| ConsumerProps.SavedMessageNonEmpty | chatapp/consumers.py:196-201 | the Message `_save_message` writes for a truthy content or attachment list has truthy content or attachments |
| ConsumerProps.PersistedMessagesNonEmpty | chatapp/consumers.py:132-145 | every Message a receive step stores has truthy content or truthy attachments |
| ConsumerProps.SaveMediaValid | chatapp/consumers.py:204-212 | the media loop keeps the schema guarantees |
| ConsumerProps.WriteMessageValid | chatapp/consumers.py:196-212 | writing the message and its media keeps the schema guarantees |
| ConsumerProps.SaveMessageValid | chatapp/consumers.py:191-214 | `_save_message` keeps the schema guarantees |
| ConsumerProps.ReceiveStoreValid | chatapp/consumers.py:61-146 | a receive step keeps the schema guarantees |
| ConsumerProps.ReceiveValid | chatapp/consumers.py:61-146 | a receive step keeps the hub invariant |
| MediaUpload.MediaKind | chatapp/views_media.py:34-44 | the media kind is one of image, video, audio, file (never voice). It is image, video or audio iff the guessed MIME type starts with that word, and file for no guess or anything else |
| MediaUpload.StoragePath | chatapp/views_media.py:53-54 | the requested storage name is `media/` followed by the room name, `_`, the timestamp, `_` and the uploaded file's own name, with nothing else in between |
| MediaUpload.UploadMedia | chatapp/views_media.py:21-64 | a non-POST is a 400 "Invalid request" and a POST without a file a 400 "No file uploaded", both changing nothing. The room is got or created before the file is stored. The upload succeeds iff a room is named and it exists or fits 255 characters; any other POST with a file is a 500 with nothing changed. On success the bytes are stored under `media/<room>_<stamp>_<name>` (or the storage's alternative when that is taken) and the response carries `/media/` plus that path and the media kind |
| MediaUpload.UploadKeepsFiles | chatapp/views_media.py:53-55 | an upload never overwrites or removes a stored file and adds at most one; a failed request adds none |
| MediaUpload.UploadMediaValid | chatapp/views_media.py:31 | an upload keeps the schema guarantees and changes the store only by appending the named room when it did not exist |
| ChunkUpload.Chunk | chatapp/views_upload.py:20-43 | the answer is a 405 iff the request is not a POST, and then nothing is touched. A missing index or total raises TypeError and a malformed one ValueError, before any file is touched. The call completes iff it carries a file and a filename and index + 1 == total. Completing removes `<name>.part` and leaves `<name>` holding exactly the accumulated bytes, with URL `/media/uploads/<name>`; every other stored file keeps its bytes. A POST with no file raises AttributeError once the partial file has been opened. A last chunk with no filename raises TypeError after its bytes were appended. Otherwise the chunk is appended to `.part` and the index echoed |
| ChunkUpload.ArrivalOrder | chatapp/views_upload.py:29-34 | two chunks are appended in arrival order, whatever their indices |
| ChunkUpload.Rendered | chatapp/views_upload.py:29 | the f-string puts a given filename in verbatim and renders a missing one as `None` |
| ChunkUpload.MissingNameSharesNonePart | chatapp/views_upload.py:24-34 | before the last chunk, a chunk with no filename and a chunk of a file named "None" have the same effect and answer, because both append to `None.part` |
| ChunkUpload.Parse | chatapp/views_upload.py:25-26 | `int(...)` of a POST field: it yields the number iff the field holds an integer literal; a missing field (None) raises TypeError and anything else ValueError |
| ChunkUpload.PartHoldsPrefix | chatapp/views_upload.py:29-34 | before the last chunk the partial file holds the chunks posted so far, in order |
| ChunkUpload.UploadAssembles | chatapp/views_upload.py:29-41 | posting chunks 0..n-1 in order leaves the final file holding their concatenation, no partial file, and every other stored file exactly as it was |
| Views.RoomMessages | chatapp/views.py:25-27 | the room's messages are exactly the stored messages whose room is that room |
| Views.History | chatapp/views.py:24-29 | the history holds min(50, n) of the room's n messages in ascending timestamp order (the model's default ordering), and no message left out is newer than one shown |
| Views.ShortHistoryIsComplete | chatapp/views.py:28 | a room with at most 50 messages shows all of them |
| Views.ChatRoomView | chatapp/views.py:21-34 | an anonymous visitor is redirected with nothing changed. Otherwise the page renders iff the room exists or its name fits, the room then exists, and the page shows that room's history: its newest 50 messages (all of them when it has fewer), oldest first. No message, user or media row changes |
| Views.ChatRoomViewIdempotent | chatapp/views.py:23 | opening a room page twice creates the room at most once and shows the same page |
| Views.IsAdmin | chatapp/views.py:40-41 | the check holds exactly for a logged-in user whose staff flag is set; an anonymous visitor is never staff |
| Views.DashboardOf | chatapp/views.py:80-90 | the dashboard lists at most 50 users by descending id, 100 media files by descending upload time and 100 recordings by descending creation time. Each list holds the newest rows of its table |
| Views.AdminCreateUser | chatapp/views.py:47-100 | a non-staff visitor is redirected with nothing changed. A staff POST with a valid form creates the account iff its name is free and fits, with exactly the submitted flags, and redirects. A staff POST whose valid form cannot be inserted is a server error with nothing changed. Any other staff request (a GET, or a POST whose form fails validation) renders the dashboard with nothing changed |
| Views.AdminCreateUserValid | chatapp/views.py:60-73 | the dashboard keeps the schema guarantees, and only a staff POST changes the store |

## Left out

- Transport and concurrency:
  - the channel layer, asyncio and the websocket transport (`group_add`, `group_send`,
    `accept`, `close`, `send`) are reduced to updates of the hub;
  - races on `ONLINE` are left out;
  - failed deliveries are left out;
  - the per-process nature of `ONLINE` is left out.
- Channel layer names: the layer's pattern uses `\d`, which in Python also matches non-ASCII
  decimal digits. `Consumer.ValidGroupName` accepts ASCII digits only, so it refuses a few
  names the layer would accept.
- After an exception: the model stops the step with `Raised`. What the server then does to the
  connection is left out.
- JSON: encoding and decoding are left out. Frames arrive decoded, and numbers are integers
  (floats are left out).
- Django's coercion of non-string values written to text columns (`str()` on save) is left out.
  The columns hold the JSON value given to the ORM. Only null values and over-wide strings are
  rejected (see the PostgreSQL string rules below).
- PostgreSQL string rules: three rules of the database are not modelled, and the lines below
  name the contracts they affect.
  - `varchar(n)` truncates an over-wide value whose excess is all spaces instead of rejecting
    it.
  - NUL characters are rejected in text and `jsonb` columns.
  - `create_user` applies NFKC normalisation to the username.
- Models.GetOrCreateRoom: a name wider than 255 characters whose excess is all spaces is
  rejected in the model, where PostgreSQL stores it truncated; a NUL in the name is accepted
  in the model, where PostgreSQL rejects it.
- Models.GetOrCreateRoomIdempotent: holds of the model only. In the database a
  space-padded over-wide name creates a truncated room, which the second lookup does not find,
  so the second call fails on the unique name.
- Models.CreateMessage: a NUL in the content or anywhere in the attachments is accepted in the
  model, where PostgreSQL rejects the INSERT.
- Models.CreateMediaFile: NULs and space-padded over-wide strings are treated as for rooms.
- Models.CreateUser: usernames are compared as given. Django normalises them with NFKC, so
  two names that normalise alike collide in the source but not in the model.
- Consumer.SaveMessage: inherits the gaps of GetOrCreateRoom, CreateMessage and
  CreateMediaFile. A frame whose text holds a NUL is broadcast and then fails to save in the
  source, but is saved in the model.
- Views.ChatRoomView: inherits the gaps of GetOrCreateRoom.
- Views.ChatRoomViewIdempotent: inherits the gaps of GetOrCreateRoomIdempotent.
- MediaUpload.UploadMedia: inherits the gaps of GetOrCreateRoom.
- Primary keys: the per-table sequences are replaced by one shared counter. Only uniqueness
  within a table and freshness are modelled.
- Clocks: one `now` is used per call, where the source reads the clock separately for each
  row.
- Passwords: password hashing is left out, and so is the separate UPDATE that `create_user`
  followed by `save()` performs. The model writes the account once, with its final flags.
- Forms: Django form validation is left out. A valid form is given as its cleaned fields, and
  an invalid form as `None`.
- Templates: template rendering is left out. Pages are the data given to the template.
- UploadMedia: the returned URL is not percent-encoded as the storage's `url()` would do.
- UploadMedia: the storage's name validation is left out. That validation rejects absolute
  names and `..` components, which a room name beginning with `/` or holding `..` would
  produce through `os.path.join`. The model always stores under `media/` plus the file name.
- UploadMedia: the storage's choice of an alternative name is a parameter that is required to
  be free.
- MediaKind: the MIME guess itself (`mimetypes.guess_type`) is a parameter.
- Chunk: `int()` parsing of the two fields is given already done. The model only keeps which
  error a missing or malformed field raises.
- Chunk: `os.makedirs` is left out, and so are file-system errors.
- Chunk: path normalisation of the file name is left out, so a name holding `..` is just
  another key.
- Out of scope: `chatapp/views_call_recording.py`, the settings, URL routing (where
  `chunk_upload` is not routed at all), the admin configuration and the migrations.

=== FILE: base.dfy ===
/** Shared vocabulary: optional values, the Python exceptions the modelled code can raise,
    results, bytes. */
module Base {

  datatype Option<T> = None | Some(value: T) {

    /** `value` when present, `default` otherwise. */
    function GetOr(default: T): T {
      match this
      case Some(v) => v
      case None => default
    }
  }

  /** Exceptions raised by the modelled Python code, or by the database on its behalf. */
  datatype PyError =
    | JsonDecodeError   // json.loads of text that is not JSON
    | AttributeError    // `.get` / `.chunks` on a value of the wrong type
    | TypeError         // unhashable value in a set test, iterating a non-iterable, int(None)
    | ValueError        // int() of a malformed string, create_user without a username
    | DatabaseError     // an INSERT that violates NOT NULL, UNIQUE, a foreign key or a column width

  datatype Result<T> = Ok(value: T) | Err(error: PyError)

  newtype byte = x: int | 0 <= x < 256

  function Min(a: int, b: int): int {
    if a <= b then a else b
  }
}

=== FILE: chunk_upload.dfy ===
/** `chunk_upload`: a large file arrives as a series of POSTs, each appending one chunk to
    `<filename>.part` in the uploads directory; the call whose index is the last one renames
    the partial file to `<filename>`.

    The directory is a map from a path under the media root to the bytes stored there. The
    request's integer fields are given already parsed: absent, not an integer, or a value. */
module ChunkUpload {
  import opened Base

  const UploadDir: string := "uploads"
  const UploadUrl: string := "/media/uploads/"

  /** `request.POST.get(k)` fed to `int(...)`: a missing field is `None`, which `int` rejects
      with a TypeError; a field that is not an integer literal raises ValueError. */
  datatype IntField = Missing | Malformed | IntValue(n: int)

  datatype ChunkRequest = ChunkRequest(
    verb: string, file: Option<seq<byte>>, filename: Option<string>,
    chunkIndex: IntField, totalChunks: IntField)

  datatype ChunkResponse =
    | MethodNotAllowed
    | Failed(error: PyError)
    | ChunkReceived(index: int)
    | Completed(fileUrl: string)

  /** The HTTP status each response is sent with; an exception becomes a server error. */
  function Status(r: ChunkResponse): int {
    match r
    case MethodNotAllowed => 405
    case Failed(_) => 500
    case ChunkReceived(_) => 200
    case Completed(_) => 200
  }

  datatype ChunkStep = ChunkStep(files: map<string, seq<byte>>, response: ChunkResponse)

  /** The file name as the f-string renders it: a missing field prints as `None`. */
  function Rendered(filename: Option<string>): (n: string)
    ensures filename.Some? ==> n == filename.value
    ensures filename.None? ==> n == "None"
  {
    if filename.None? then "None" else filename.value
  }

  function PartPath(name: string): string { UploadDir + "/" + name + ".part" }
  function FinalPath(name: string): string { UploadDir + "/" + name }

  /** What a path holds, the empty file when nothing is there. */
  function Contents(files: map<string, seq<byte>>, path: string): seq<byte> {
    if path in files then files[path] else []
  }

  function Parse(f: IntField): (r: Result<int>)
    ensures r.Ok? <==> f.IntValue?
    ensures r.Ok? ==> r.value == f.n
    ensures f.Missing? ==> r == Err(TypeError)
    ensures f.Malformed? ==> r == Err(ValueError)
  {
    match f
    case Missing => Err(TypeError)
    case Malformed => Err(ValueError)
    case IntValue(n) => Ok(n)
  }

  lemma PartIsNotFinal(name: string)
    ensures PartPath(name) != FinalPath(name)
  {
    var p := PartPath(name);
    var f := FinalPath(name);
    if p == f {
      assert |p| == |f| + 5;
    }
  }

  /** `chunk_upload`. A non-POST touches nothing. Both integer fields are parsed before any
      file is opened. Opening the partial file for appending creates it; reading the chunk of a
      request without a file then raises. On the last index the partial file is renamed to the
      final name, replacing whatever was there; a missing file name raises at that point,
      after the chunk was appended. */
  function Chunk(files: map<string, seq<byte>>, req: ChunkRequest): (r: ChunkStep)
    ensures req.verb != "POST" ==> r == ChunkStep(files, MethodNotAllowed)
    ensures req.verb == "POST" && Parse(req.chunkIndex).Err? ==>
              r == ChunkStep(files, Failed(Parse(req.chunkIndex).error))
    ensures req.verb == "POST" && Parse(req.chunkIndex).Ok? && Parse(req.totalChunks).Err? ==>
              r == ChunkStep(files, Failed(Parse(req.totalChunks).error))
    ensures r.response.Completed? <==>
              && req.verb == "POST" && req.file.Some? && req.filename.Some?
              && req.chunkIndex.IntValue? && req.totalChunks.IntValue?
              && req.chunkIndex.n + 1 == req.totalChunks.n
    ensures r.response.ChunkReceived? <==>
              && req.verb == "POST" && req.file.Some?
              && req.chunkIndex.IntValue? && req.totalChunks.IntValue?
              && req.chunkIndex.n + 1 != req.totalChunks.n
    ensures r.response.ChunkReceived? ==> r.response.index == req.chunkIndex.n
    ensures r.response.Completed? ==>
              var name := req.filename.value;
              && r.response.fileUrl == UploadUrl + name
              && PartPath(name) !in r.files
              && FinalPath(name) in r.files
              && r.files[FinalPath(name)] == Contents(files, PartPath(name)) + req.file.value
              && r.files == (files - {PartPath(name)})[FinalPath(name) := Contents(files, PartPath(name)) + req.file.value]
    ensures r.response.Failed? ==> r.response.error in {TypeError, ValueError, AttributeError}
    ensures r.response.MethodNotAllowed? <==> req.verb != "POST"
    ensures req.verb == "POST" && req.chunkIndex.IntValue? && req.totalChunks.IntValue? && req.file.None? ==>
              r.response == Failed(AttributeError)
    ensures && req.verb == "POST" && req.chunkIndex.IntValue? && req.totalChunks.IntValue?
            && req.file.Some? && req.chunkIndex.n + 1 == req.totalChunks.n && req.filename.None? ==>
              r.response == Failed(TypeError)
    ensures !r.response.Completed? && req.verb == "POST" && req.chunkIndex.IntValue? && req.totalChunks.IntValue? ==>
              var part := PartPath(Rendered(req.filename));
              r.files == files[part := Contents(files, part) + (if req.file.Some? then req.file.value else [])]
  {
    if req.verb != "POST" then ChunkStep(files, MethodNotAllowed)
    else
      match Parse(req.chunkIndex)
      case Err(e) => ChunkStep(files, Failed(e))
      case Ok(index) =>
        match Parse(req.totalChunks)
        case Err(e) => ChunkStep(files, Failed(e))
        case Ok(total) =>
          var part := PartPath(Rendered(req.filename));
          if req.file.None? then
            assert Contents(files, part) + [] == Contents(files, part);
            ChunkStep(files[part := Contents(files, part)], Failed(AttributeError))
          else
            var appended := files[part := Contents(files, part) + req.file.value];
            if index + 1 != total then ChunkStep(appended, ChunkReceived(index))
            else if req.filename.None? then ChunkStep(appended, Failed(TypeError))
            else
              var name := req.filename.value;
              PartIsNotFinal(name);
              ChunkStep((appended - {part})[FinalPath(name) := appended[part]], Completed(UploadUrl + name))
  }

  /** Chunks are appended in the order the requests arrive, not in the order of their
      indices: chunk 5 posted before chunk 2 puts 5's bytes first. */
  lemma ArrivalOrder(files: map<string, seq<byte>>, name: string, a: seq<byte>, b: seq<byte>, i: int, j: int, total: int)
    requires i + 1 != total && j + 1 != total
    ensures var first := Chunk(files, ChunkRequest("POST", Some(a), Some(name), IntValue(i), IntValue(total)));
            var second := Chunk(first.files, ChunkRequest("POST", Some(b), Some(name), IntValue(j), IntValue(total)));
            && first.response == ChunkReceived(i) && second.response == ChunkReceived(j)
            && second.files[PartPath(name)] == Contents(files, PartPath(name)) + a + b
  {
  }

  /** A chunk posted without a file name lands in `None.part`, the same partial file as a
      chunk of a file literally named "None": before the last chunk the two requests cannot be
      told apart. */
  lemma MissingNameSharesNonePart(files: map<string, seq<byte>>, file: Option<seq<byte>>, i: int, total: int)
    requires i + 1 != total
    ensures Chunk(files, ChunkRequest("POST", file, None, IntValue(i), IntValue(total)))
         == Chunk(files, ChunkRequest("POST", file, Some("None"), IntValue(i), IntValue(total)))
  {
  }

  // ---------------------------------------------------------------------------------------
  // A whole upload
  // ---------------------------------------------------------------------------------------

  /** The directory after the requests are handled one after another, whatever each
      answers. */
  function Replay(files: map<string, seq<byte>>, reqs: seq<ChunkRequest>): map<string, seq<byte>>
    decreases |reqs|
  {
    if reqs == [] then files
    else Chunk(Replay(files, reqs[..|reqs| - 1]), reqs[|reqs| - 1]).files
  }

  /** The client's side: the chunks of one file posted in order, numbered from zero. */
  function Requests(name: string, chunks: seq<seq<byte>>): (reqs: seq<ChunkRequest>)
    ensures |reqs| == |chunks|
  {
    seq(|chunks|, i requires 0 <= i < |chunks| =>
      ChunkRequest("POST", Some(chunks[i]), Some(name), IntValue(i), IntValue(|chunks|)))
  }

  function Concat(chunks: seq<seq<byte>>): seq<byte> {
    if chunks == [] then [] else Concat(chunks[..|chunks| - 1]) + chunks[|chunks| - 1]
  }

  /** Before the last chunk, the partial file holds the chunks posted so far, in order. */
  lemma {:induction false} PartHoldsPrefix(files: map<string, seq<byte>>, name: string, chunks: seq<seq<byte>>, k: nat)
    requires PartPath(name) !in files
    requires 0 < k < |chunks|
    ensures Replay(files, Requests(name, chunks)[..k]) == files[PartPath(name) := Concat(chunks[..k])]
  {
    var reqs := Requests(name, chunks)[..k];
    assert reqs[..k - 1] == Requests(name, chunks)[..k - 1];
    assert chunks[..k][..k - 1] == chunks[..k - 1];
    var before := Replay(files, reqs[..k - 1]);
    if k == 1 {
      assert before == files;
    } else {
      PartHoldsPrefix(files, name, chunks, k - 1);
    }
    assert Contents(before, PartPath(name)) == Concat(chunks[..k - 1]);
  }

  /** Posting every chunk in order, starting with no partial file, leaves the file assembled
      from the chunks in order under its final name, and no partial file. */
  lemma {:induction false} UploadAssembles(files: map<string, seq<byte>>, name: string, chunks: seq<seq<byte>>)
    requires PartPath(name) !in files
    requires chunks != []
    ensures var after := Replay(files, Requests(name, chunks));
            && PartPath(name) !in after
            && FinalPath(name) in after && after[FinalPath(name)] == Concat(chunks)
            && after == files[FinalPath(name) := Concat(chunks)]
  {
    var n := |chunks|;
    var reqs := Requests(name, chunks);
    assert reqs[..n] == reqs;
    assert chunks[..n] == chunks;
    assert reqs[..n][..n - 1] == reqs[..n - 1];
    var before := Replay(files, reqs[..n - 1]);
    if n == 1 {
      assert before == files;
    } else {
      PartHoldsPrefix(files, name, chunks, n - 1);
    }
    assert Contents(before, PartPath(name)) == Concat(chunks[..n - 1]);
  }
}

=== FILE: consumer.dfy ===
/** The websocket consumer of `chatapp/consumers.py` as a sequential state machine over one
    global hub: the per-room presence map (`ONLINE`), the channel layer's groups, one outbox of
    sent frames per connection, and the store. Each transition is a pure function. */
module Consumer {
  import opened Base
  import opened Json
  import Models

  /** A connection, named by its channel. */
  type Channel = nat

  /** `scope["user"]`. */
  datatype Identity = Anonymous | Authenticated(username: string)

  /** `user.username`; Django's anonymous user has the empty username. */
  function Username(u: Identity): string {
    match u
    case Anonymous => ""
    case Authenticated(name) => name
  }

  /** A consumer instance: who it serves, the room from its URL route, and whether it is
      still handling events (accepted and not yet disconnected). */
  datatype Session = Session(user: Identity, room: string, open: bool)

  datatype PresenceKind = UserJoin | UserLeave {
    /** The `type` string of the outbound presence frame. */
    function Name(): string {
      match this
      case UserJoin => "user_join"
      case UserLeave => "user_leave"
    }
  }

  /** What `group_send` carries; the variant selects the receiving handler. */
  datatype Event =
    | PresenceEvent(kind: PresenceKind, username: string)
    | TypingEvent(username: string)
    | SignalEvent(payload: map<string, Value>)
    | ChatMessage(message: Value, username: string, attachments: Value, replyTo: Value)

  /** Frames a consumer sends to its client. `OnlineList` carries a set: the source lists a
      Python set, whose iteration order is unspecified. */
  datatype Out =
    | OnlineList(users: set<string>)
    | PresenceNote(kind: PresenceKind, username: string)
    | TypingNote(username: string)
    | SignalRelay(payload: map<string, Value>)
    | ChatOut(message: Value, username: string, attachments: Value, replyTo: Option<Value>)

  datatype Hub = Hub(
    online: map<string, set<string>>,
    groups: map<string, set<Channel>>,
    sessions: map<Channel, Session>,
    outbox: map<Channel, seq<Out>>,
    store: Models.Store)

  /** An inbound websocket frame: no text (None or ""), text that is not JSON, or decoded JSON. */
  datatype Frame = NoText | Malformed | Parsed(v: Value)

  /** Whether a handler ran to its end or raised. */
  datatype Outcome = Done | Raised(error: PyError)

  datatype Step = Step(hub: Hub, outcome: Outcome)

  datatype Saved = Saved(store: Models.Store, outcome: Outcome)

  /** The branch of `receive` an inbound object takes. */
  datatype Kind = Signal | Typing | Media | Text | Drop

  const SignalTypes: set<string> :=
    {"call_request", "call_accept", "call_reject", "call_timeout", "offer", "answer", "ice", "call_end"}

  function GroupName(room: string): string {
    "chat_" + room
  }

  /** `ONLINE.get(room, set())`. */
  function Present(online: map<string, set<string>>, room: string): set<string> {
    if room in online then online[room] else {}
  }

  function GroupOf(groups: map<string, set<Channel>>, g: string): set<Channel> {
    if g in groups then groups[g] else {}
  }

  /** The channels subscribed to a room's group. */
  function Members(h: Hub, room: string): set<Channel> {
    GroupOf(h.groups, GroupName(room))
  }

  function OutboxOf(outbox: map<Channel, seq<Out>>, c: Channel): seq<Out> {
    if c in outbox then outbox[c] else []
  }

  /** A consumer that still processes the events sent to its channel. */
  predicate Live(h: Hub, c: Channel) {
    c in h.sessions && h.sessions[c].open
  }

  /** The receiving handlers (`presence_event`, `typing_event`, `signal_event`,
      `chat_message`): what a consumer serving `receiver` sends for one group event. */
  function Deliver(receiver: Identity, ev: Event): (r: seq<Out>)
    ensures |r| <= 1
    ensures r == [] <==> ev.TypingEvent? && Username(receiver) == ev.username
    ensures ev.PresenceEvent? ==> r == [PresenceNote(ev.kind, ev.username)]
    ensures ev.TypingEvent? && Username(receiver) != ev.username ==> r == [TypingNote(ev.username)]
    ensures ev.SignalEvent? ==> r == [SignalRelay(ev.payload)]
    ensures ev.ChatMessage? ==>
              && |r| == 1 && r[0].ChatOut?
              && r[0].message == ev.message && r[0].username == ev.username
              && r[0].attachments == ev.attachments
              && (r[0].replyTo.Some? <==> Truthy(ev.replyTo))
              && (r[0].replyTo.Some? ==> r[0].replyTo.value == ev.replyTo)
  {
    match ev
    case PresenceEvent(kind, name) => [PresenceNote(kind, name)]
    case TypingEvent(name) => if Username(receiver) != name then [TypingNote(name)] else []
    case SignalEvent(payload) => [SignalRelay(payload)]
    case ChatMessage(message, name, attachments, replyTo) =>
      [ChatOut(message, name, attachments, if Truthy(replyTo) then Some(replyTo) else None)]
  }

  /** `group_send` to a room's group: every live member's handler runs on the event. */
  function Broadcast(h: Hub, room: string, ev: Event): (r: Hub)
    ensures r.(outbox := h.outbox) == h
    ensures forall c {:trigger OutboxOf(r.outbox, c)} :: OutboxOf(r.outbox, c) ==
              OutboxOf(h.outbox, c) + (if c in Members(h, room) && Live(h, c) then Deliver(h.sessions[c].user, ev) else [])
  {
    var members := Members(h, room);
    h.(outbox := map c | c in h.outbox.Keys + members ::
         OutboxOf(h.outbox, c) + (if c in members && Live(h, c) then Deliver(h.sessions[c].user, ev) else []))
  }

  /** The channel layer refuses group names of `MaxNameLength` characters or more. */
  const MaxNameLength: nat := 100

  /** The characters a group name may use: ASCII letters, digits, `-`, `_` and `.`. */
  predicate GroupNameChar(c: char) {
    ('a' <= c <= 'z') || ('A' <= c <= 'Z') || ('0' <= c <= '9') || c == '-' || c == '_' || c == '.'
  }

  /** The channel layer's check on a group name, which every `group_add`, `group_discard` and
      `group_send` applies before touching the group: shorter than `MaxNameLength`, and one or
      more allowed characters, matched with `^...+$`, whose `$` also accepts one newline at
      the very end. */
  predicate ValidGroupName(g: string) {
    |g| < MaxNameLength && PatternBody(g) != [] && AllGroupNameChars(PatternBody(g))
  }

  /** What the `+` of the pattern has to match: the name without one trailing newline. */
  function PatternBody(g: string): string {
    if g != [] && g[|g| - 1] == '\n' then g[..|g| - 1] else g
  }

  predicate AllGroupNameChars(s: string) {
    forall i :: 0 <= i < |s| ==> GroupNameChar(s[i])
  }

  /** The part of `connect` after `group_add` succeeded: the channel is in the room's group,
      the connection is accepted, the user joins the presence set, is sent the presence list,
      and the room hears of it. What each outbox receives is `JoinOutboxes`. */
  function Join(h: Hub, ch: Channel, name: string, room: string): (r: Hub)
    ensures r.store == h.store
    ensures r.sessions == h.sessions[ch := Session(Authenticated(name), room, true)]
    ensures Present(r.online, room) == Present(h.online, room) + {name}
    ensures forall other :: other != room ==> Present(r.online, other) == Present(h.online, other)
    ensures Members(r, room) == Members(h, room) + {ch}
    ensures forall g :: g != GroupName(room) ==> GroupOf(r.groups, g) == GroupOf(h.groups, g)
  {
    var g := GroupName(room);
    var joined := h.(
      groups := h.groups[g := GroupOf(h.groups, g) + {ch}],
      sessions := h.sessions[ch := Session(Authenticated(name), room, true)],
      online := h.online[room := Present(h.online, room) + {name}]);
    var listed := joined.(outbox := joined.outbox[ch := OutboxOf(joined.outbox, ch) + [OnlineList(Present(joined.online, room))]]);
    Broadcast(listed, room, PresenceEvent(UserJoin, name))
  }

  /** The joining connection is sent the presence list, itself included, and then its own
      `user_join`; every other live member of the room is sent the `user_join`; no other
      outbox changes. */
  lemma JoinOutboxes(h: Hub, ch: Channel, name: string, room: string)
    ensures var r := Join(h, ch, name, room);
            && OutboxOf(r.outbox, ch) == OutboxOf(h.outbox, ch) +
                 [OnlineList(Present(h.online, room) + {name}), PresenceNote(UserJoin, name)]
            && (forall c :: c != ch && c in Members(h, room) && Live(h, c) ==>
                  OutboxOf(r.outbox, c) == OutboxOf(h.outbox, c) + [PresenceNote(UserJoin, name)])
            && (forall c :: c != ch && !(c in Members(h, room) && Live(h, c)) ==>
                  OutboxOf(r.outbox, c) == OutboxOf(h.outbox, c))
  {
    var g := GroupName(room);
    var joined := h.(
      groups := h.groups[g := GroupOf(h.groups, g) + {ch}],
      sessions := h.sessions[ch := Session(Authenticated(name), room, true)],
      online := h.online[room := Present(h.online, room) + {name}]);
    var listed := joined.(outbox := joined.outbox[ch := OutboxOf(joined.outbox, ch) + [OnlineList(Present(joined.online, room))]]);
    var r := Broadcast(listed, room, PresenceEvent(UserJoin, name));
    assert forall c :: c != ch ==> (Live(listed, c) <==> Live(h, c));
    assert forall c :: c != ch ==> OutboxOf(listed.outbox, c) == OutboxOf(h.outbox, c);
    assert OutboxOf(r.outbox, ch) == OutboxOf(listed.outbox, ch) + [PresenceNote(UserJoin, name)];
  }

  /** `connect`: an anonymous user is closed before being accepted. For anyone else the
      channel first joins the room's group; a room whose group name the channel layer refuses
      raises there, before the connection is accepted or anyone is told. Otherwise the user
      joins as `Join` describes. */
  function Connect(h: Hub, ch: Channel, user: Identity, room: string): (r: Step)
    ensures r.hub.store == h.store
    ensures ch in r.hub.sessions && r.hub.sessions[ch].user == user && r.hub.sessions[ch].room == room
    ensures r.hub.sessions[ch].open <==> user.Authenticated? && ValidGroupName(GroupName(room))
    ensures r.outcome.Raised? <==> user.Authenticated? && !ValidGroupName(GroupName(room))
    ensures r.outcome.Raised? ==> r.outcome.error == TypeError
    ensures r.hub.sessions == h.sessions[ch := Session(user, room, r.hub.sessions[ch].open)]
    ensures !r.hub.sessions[ch].open ==> r.hub.online == h.online && r.hub.groups == h.groups && r.hub.outbox == h.outbox
    ensures r.hub.sessions[ch].open ==> r.hub == Join(h, ch, user.username, room)
  {
    var closed := h.(sessions := h.sessions[ch := Session(user, room, false)]);
    match user
    case Anonymous => Step(closed, Done)
    case Authenticated(name) =>
      if !ValidGroupName(GroupName(room)) then Step(closed, Raised(TypeError))
      else Step(Join(h, ch, name, room), Done)
  }

  /** `group_discard`. */
  function Discard(groups: map<string, set<Channel>>, g: string, ch: Channel): map<string, set<Channel>> {
    if g in groups then groups[g := groups[g] - {ch}] else groups
  }

  /** `disconnect`: the consumer stops; if its username is present in the room it is removed
      and the rest of the room hears `user_leave`; the channel always leaves the group. On a
      room whose group name the channel layer refuses, the `group_send` or the `group_discard`,
      whichever comes first, raises, after the presence entry is gone and before any group is
      touched. */
  function Disconnect(h: Hub, ch: Channel): (r: Step)
    ensures r.hub.store == h.store
    ensures ch !in h.sessions ==> r == Step(h, Done)
    ensures ch in h.sessions ==>
              var s := h.sessions[ch];
              var u := Username(s.user);
              && !Live(r.hub, ch)
              && u !in Present(r.hub.online, s.room)
              && Present(r.hub.online, s.room) == Present(h.online, s.room) - {u}
              && (forall other :: other != s.room ==> Present(r.hub.online, other) == Present(h.online, other))
              && (forall c :: c != ch ==> (Live(r.hub, c) <==> Live(h, c)))
              && (r.outcome.Raised? <==> !ValidGroupName(GroupName(s.room)))
              && (r.outcome.Raised? ==> r.outcome.error == TypeError && r.hub.groups == h.groups && r.hub.outbox == h.outbox)
              && (r.outcome.Done? ==> ch !in Members(r.hub, s.room))
  {
    if ch !in h.sessions then Step(h, Done)
    else
      var s := h.sessions[ch];
      var u := Username(s.user);
      var closed := h.(sessions := h.sessions[ch := s.(open := false)]);
      var left := closed.(online := closed.online[s.room := Present(h.online, s.room) - {u}]);
      if !ValidGroupName(GroupName(s.room)) then
        Step(if u in Present(h.online, s.room) then left else closed, Raised(TypeError))
      else
        var announced := if u in Present(h.online, s.room) then Broadcast(left, s.room, PresenceEvent(UserLeave, u)) else closed;
        assert forall c :: c != ch ==> (Live(closed, c) <==> Live(h, c));
        Step(announced.(groups := Discard(announced.groups, GroupName(s.room), ch)), Done)
  }

  /** What `disconnect` sends: nothing to the leaver; when the leaver's username was present
      and the group name is accepted, `user_leave` to every other live member of the room;
      nothing to anyone else. */
  lemma DisconnectOutboxes(h: Hub, ch: Channel)
    requires ch in h.sessions
    ensures var s := h.sessions[ch];
            var u := Username(s.user);
            var r := Disconnect(h, ch);
            && OutboxOf(r.hub.outbox, ch) == OutboxOf(h.outbox, ch)
            && (forall c :: c != ch && c in Members(h, s.room) && Live(h, c) ==>
                  OutboxOf(r.hub.outbox, c) == OutboxOf(h.outbox, c) +
                    (if u in Present(h.online, s.room) && r.outcome.Done? then [PresenceNote(UserLeave, u)] else []))
            && (forall c :: c != ch && !(c in Members(h, s.room) && Live(h, c)) ==>
                  OutboxOf(r.hub.outbox, c) == OutboxOf(h.outbox, c))
  {
    var s := h.sessions[ch];
    var closed := h.(sessions := h.sessions[ch := s.(open := false)]);
    assert forall c :: c != ch ==> (Live(closed, c) <==> Live(h, c));
  }

  /** `json.loads(text_data or "{}")`: no text reads as the empty object, text that is not
      JSON raises, and JSON text yields the value it encodes. */
  function Decode(f: Frame): (r: Result<Value>)
    ensures r.Err? <==> f.Malformed?
    ensures r.Err? ==> r.error == JsonDecodeError
    ensures f.NoText? ==> r == Ok(Obj(map[]))
    ensures f.Parsed? ==> r == Ok(f.v)
  {
    match f
    case NoText => Ok(Obj(map[]))
    case Malformed => Err(JsonDecodeError)
    case Parsed(v) => Ok(v)
  }

  /** The first-match-wins dispatch of `receive` on a decoded frame. */
  function Classify(data: Value): (r: Result<Kind>)
    ensures !data.Obj? ==> r == Err(AttributeError)
    ensures data.Obj? && !Hashable(Get(data.fields, "type")) ==> r == Err(TypeError)
    ensures r.Ok? <==> data.Obj? && Hashable(Get(data.fields, "type"))
    ensures r == Ok(Signal) <==> data.Obj? && Get(data.fields, "type").Str? && Get(data.fields, "type").s in SignalTypes
    ensures r == Ok(Typing) <==> data.Obj? && Get(data.fields, "type") == Str("typing")
    ensures r == Ok(Media) <==> data.Obj? && Get(data.fields, "type") == Str("media")
    ensures r == Ok(Text) <==>
              && data.Obj? && Hashable(Get(data.fields, "type"))
              && Get(data.fields, "type") !in {Str("typing"), Str("media")}
              && !(Get(data.fields, "type").Str? && Get(data.fields, "type").s in SignalTypes)
              && (Truthy(GetOr(data.fields, "message", Str(""))) || Truthy(GetOr(data.fields, "attachments", Arr([]))))
  {
    if !data.Obj? then Err(AttributeError)
    else
      var t := Get(data.fields, "type");
      if !Hashable(t) then Err(TypeError)
      else if t.Str? && t.s in SignalTypes then Ok(Signal)
      else if t == Str("typing") then Ok(Typing)
      else if t == Str("media") then Ok(Media)
      else if Truthy(GetOr(data.fields, "message", Str(""))) || Truthy(GetOr(data.fields, "attachments", Arr([]))) then Ok(Text)
      else Ok(Drop)
  }

  /** The single attachment the media branch builds from the inbound fields. It always has a
      `type` key, so the columns saved for it take the inbound `media_type` as they are, even
      a missing one, and `"file"` is never substituted. */
  function MediaAttachment(d: map<string, Value>): (r: Value)
    ensures r.Obj? && r.fields.Keys == {"type", "url", "name", "duration"}
    ensures SpecOf(r.fields) ==
              MediaSpec(Get(d, "media_url"), Get(d, "media_type"), GetOr(d, "name", Str("")), GetOr(d, "duration", Str("")))
  {
    Obj(map[
      "type" := Get(d, "media_type"),
      "url" := Get(d, "media_url"),
      "name" := GetOr(d, "name", Str("")),
      "duration" := GetOr(d, "duration", Str(""))])
  }

  /** The columns `_save_message` writes for one attachment dict. */
  datatype MediaSpec = MediaSpec(url: Value, mediaType: Value, name: Value, duration: Value)

  function SpecOf(att: map<string, Value>): (sp: MediaSpec)
    ensures sp.url == (if "url" in att then att["url"] else Null)
    ensures sp.mediaType == (if "type" in att then att["type"] else Str("file"))
    ensures sp.name == (if "name" in att then att["name"] else Str(""))
    ensures sp.duration == (if "duration" in att then att["duration"] else Str(""))
  {
    MediaSpec(Get(att, "url"), GetOr(att, "type", Str("file")), GetOr(att, "name", Str("")), GetOr(att, "duration", Str("")))
  }

  function RowSpec(f: Models.MediaFile): MediaSpec {
    MediaSpec(f.fileUrl, f.mediaType, f.name, f.duration)
  }

  function RowSpecs(rows: seq<Models.MediaFile>): (r: seq<MediaSpec>)
    ensures |r| == |rows|
    ensures forall i :: 0 <= i < |rows| ==> r[i] == RowSpec(rows[i])
  {
    if rows == [] then [] else [RowSpec(rows[0])] + RowSpecs(rows[1..])
  }

  /** The attachments that should get a MediaFile row: dicts whose "url" is truthy, in order. */
  function WithUrl(items: seq<Value>): seq<MediaSpec> {
    if items == [] then []
    else if items[0].Obj? && Truthy(Get(items[0].fields, "url")) then [SpecOf(items[0].fields)] + WithUrl(items[1..])
    else WithUrl(items[1..])
  }

  predicate AllDicts(items: seq<Value>) {
    forall i :: 0 <= i < |items| ==> items[i].Obj?
  }

  predicate SpecFits(sp: MediaSpec) {
    Models.MediaColumnsFit(sp.url, sp.mediaType, sp.name, sp.duration)
  }

  /** The attachment loop can run to the end: every item is a dict and every url-bearing one
      fits the MediaFile columns. */
  predicate MediaFits(items: seq<Value>) {
    AllDicts(items) && forall sp :: sp in WithUrl(items) ==> SpecFits(sp)
  }

  lemma RowSpecsAppend(a: seq<Models.MediaFile>, b: seq<Models.MediaFile>)
    ensures RowSpecs(a + b) == RowSpecs(a) + RowSpecs(b)
  {
    if a == [] {
      assert a + b == b;
    } else {
      assert (a + b)[1..] == a[1..] + b;
      RowSpecsAppend(a[1..], b);
    }
  }

  /** The `for att in attachments` loop of `_save_message`: one MediaFile per dict with a
      truthy url, stopping at the first item that is not a dict or a row that does not fit.
      Rows written before a failure stay. */
  function SaveMedia(s: Models.Store, msg: nat, items: seq<Value>, now: int): (r: Saved)
    ensures r.store.rooms == s.rooms && r.store.messages == s.messages
    ensures r.store.users == s.users && r.store.recordings == s.recordings
    ensures s.media <= r.store.media
    ensures forall f :: f in r.store.media[|s.media|..] ==> f.message == msg
    ensures |r.store.media| <= |s.media| + |items|
    ensures r.outcome.Raised? ==> r.outcome.error in {AttributeError, DatabaseError}
    decreases items
  {
    if items == [] then Saved(s, Done)
    else if !items[0].Obj? then Saved(s, Raised(AttributeError))
    else
      var att := items[0].fields;
      if !Truthy(Get(att, "url")) then
        SaveMedia(s, msg, items[1..], now)
      else
        var sp := SpecOf(att);
        var w := Models.CreateMediaFile(s, msg, sp.url, sp.mediaType, sp.name, sp.duration, now);
        if w.result.Err? then
          Saved(w.store, Raised(w.result.error))
        else
          var r := SaveMedia(w.store, msg, items[1..], now);
          assert r.store.media[|s.media|..] == [w.result.value] + r.store.media[|w.store.media|..];
          r
  }

  /** What the loop wrote: one row per url-bearing attachment, in order, each with that
      attachment's columns, and all of them when it finishes. */
  lemma {:induction false} SaveMediaRows(s: Models.Store, msg: nat, items: seq<Value>, now: int)
    ensures var r := SaveMedia(s, msg, items, now);
            && RowSpecs(r.store.media[|s.media|..]) <= WithUrl(items)
            && (r.outcome.Done? ==> RowSpecs(r.store.media[|s.media|..]) == WithUrl(items))
    decreases items
  {
    if items != [] && items[0].Obj? {
      var att := items[0].fields;
      assert items == [items[0]] + items[1..];
      if !Truthy(Get(att, "url")) {
        SaveMediaRows(s, msg, items[1..], now);
      } else {
        var sp := SpecOf(att);
        var w := Models.CreateMediaFile(s, msg, sp.url, sp.mediaType, sp.name, sp.duration, now);
        assert WithUrl(items) == [sp] + WithUrl(items[1..]);
        if w.result.Ok? {
          var r := SaveMedia(w.store, msg, items[1..], now);
          SaveMediaRows(w.store, msg, items[1..], now);
          assert r.store.media[|s.media|..] == [w.result.value] + r.store.media[|w.store.media|..];
          RowSpecsAppend([w.result.value], r.store.media[|w.store.media|..]);
        }
      }
    }
  }

  /** The loop finishes exactly when every item is a dict, every row fits its columns and
      the message exists for the rows to point at. */
  lemma {:induction false} SaveMediaOutcome(s: Models.Store, msg: nat, items: seq<Value>, now: int)
    ensures SaveMedia(s, msg, items, now).outcome.Done? <==>
              && AllDicts(items)
              && (forall sp :: sp in WithUrl(items) ==> SpecFits(sp))
              && (WithUrl(items) != [] ==> msg in Models.MessageIds(s.messages))
    decreases items
  {
    if items != [] && items[0].Obj? {
      var att := items[0].fields;
      assert items == [items[0]] + items[1..];
      if !Truthy(Get(att, "url")) {
        SaveMediaOutcome(s, msg, items[1..], now);
      } else {
        var sp := SpecOf(att);
        var w := Models.CreateMediaFile(s, msg, sp.url, sp.mediaType, sp.name, sp.duration, now);
        assert WithUrl(items) == [sp] + WithUrl(items[1..]);
        if w.result.Err? {
          assert sp in WithUrl(items);
        } else {
          SaveMediaOutcome(w.store, msg, items[1..], now);
        }
      }
    }
  }

  /** The items `for att in attachments or []` walks, or what the walk raises before its first
      MediaFile: a non-empty string or dict yields strings, which have no `.get`; a true
      boolean or non-zero number is not iterable. */
  function Iterate(v: Value): (r: Result<seq<Value>>)
    ensures !Truthy(v) ==> r == Ok([])
    ensures v.Arr? ==> r == Ok(v.items)
    ensures r.Ok? ==> r.value == [] || v.Arr?
    ensures r.Err? <==> Truthy(v) && !v.Arr?
    ensures r.Err? ==> r.error == (if v.Str? || v.Obj? then AttributeError else TypeError)
  {
    if !Truthy(v) then Ok([])
    else
      match v
      case Arr(items) => Ok(items)
      case Str(_) => Err(AttributeError)
      case Obj(_) => Err(AttributeError)
      case _ => Err(TypeError)
  }

  /** The Message row and then its MediaFiles, into a room that exists. */
  function WriteMessage(s: Models.Store, room: nat, user: Option<nat>, content: Value, attachments: Value, now: int): (r: Saved)
    requires room in Models.RoomIds(s.rooms)
    requires user.Some? ==> user.value in Models.UserIds(s.users)
    ensures r.store.rooms == s.rooms && r.store.users == s.users && r.store.recordings == s.recordings
    ensures |r.store.messages| == |s.messages| + 1 && s.messages <= r.store.messages
    ensures var m := r.store.messages[|s.messages|];
            && m.room == room && m.user == user && m.timestamp == now
            && m.content == (if Truthy(content) then content else Str(""))
            && m.attachments == (if Truthy(attachments) then attachments else Arr([]))
            && s.media <= r.store.media
            && (forall f :: f in r.store.media[|s.media|..] ==> f.message == m.id)
    ensures |r.store.media| <= |s.media| + (if attachments.Arr? then |attachments.items| else 0)
    ensures r.outcome.Done? ==>
              Iterate(attachments).Ok? && RowSpecs(r.store.media[|s.media|..]) == WithUrl(Iterate(attachments).value)
    ensures r.outcome.Done? <==> Iterate(attachments).Ok? && MediaFits(Iterate(attachments).value)
    ensures Iterate(attachments).Err? ==> r.outcome == Raised(Iterate(attachments).error)
    ensures r.outcome.Raised? ==> r.outcome.error in {AttributeError, TypeError, DatabaseError}
  {
    var mw := Models.CreateMessage(s, room, user,
                                   if Truthy(content) then content else Str(""),
                                   if Truthy(attachments) then attachments else Arr([]), now);
    var m := mw.result.value;
    match Iterate(attachments)
    case Err(e) => Saved(mw.store, Raised(e))
    case Ok(items) =>
      assert m.id in Models.MessageIds(mw.store.messages);
      SaveMediaRows(mw.store, m.id, items, now);
      SaveMediaOutcome(mw.store, m.id, items, now);
      SaveMedia(mw.store, m.id, items, now)
  }

  /** Once the Message row is in, the rest of WriteMessage is exactly the attachment loop,
      run for the new message's id over the items `attachments or []` walks. */
  lemma WriteMessageRunsLoop(s: Models.Store, room: nat, user: Option<nat>, content: Value, attachments: Value, now: int)
    requires room in Models.RoomIds(s.rooms)
    requires user.Some? ==> user.value in Models.UserIds(s.users)
    requires Iterate(attachments).Ok?
    ensures var m := Models.Message(s.nextId, room, user,
                                    if Truthy(content) then content else Str(""),
                                    if Truthy(attachments) then attachments else Arr([]), now);
            WriteMessage(s, room, user, content, attachments, now)
              == SaveMedia(s.(messages := s.messages + [m], nextId := s.nextId + 1), s.nextId, Iterate(attachments).value, now)
  {
    var c := if Truthy(content) then content else Str("");
    var a := if Truthy(attachments) then attachments else Arr([]);
    var mw := Models.CreateMessage(s, room, user, c, a, now);
    assert mw.result == Ok(Models.Message(s.nextId, room, user, c, a, now));
    assert mw.store == s.(messages := s.messages + [mw.result.value], nextId := s.nextId + 1);
  }

  /** `_save_message`: look the author up, get or create the room, create the Message, then
      the MediaFiles. Nothing is rolled back when a later step raises. */
  function SaveMessage(s: Models.Store, username: string, room: string, content: Value, attachments: Value, now: int): (r: Saved)
    ensures r.store.users == s.users && r.store.recordings == s.recordings
    ensures s.messages <= r.store.messages && |r.store.messages| <= |s.messages| + 1
    ensures s.media <= r.store.media
    ensures |r.store.messages| == |s.messages| + 1 <==>
              Models.FindRoom(s.rooms, room).Some? || |room| <= Models.RoomNameMax
    ensures |r.store.messages| == |s.messages| + 1 ==>
              var m := r.store.messages[|s.messages|];
              && m.content == (if Truthy(content) then content else Str(""))
              && m.attachments == (if Truthy(attachments) then attachments else Arr([]))
              && m.user == Models.FindUser(s.users, username)
              && m.timestamp == now
              && Models.FindRoom(r.store.rooms, room).Some?
              && Models.FindRoom(r.store.rooms, room).value.id == m.room
              && (forall f :: f in r.store.media[|s.media|..] ==> f.message == m.id)
    ensures |r.store.media| <= |s.media| + (if attachments.Arr? then |attachments.items| else 0)
    ensures r.outcome.Done? ==>
              && |r.store.messages| == |s.messages| + 1
              && Iterate(attachments).Ok?
              && RowSpecs(r.store.media[|s.media|..]) == WithUrl(Iterate(attachments).value)
    ensures r.outcome.Done? <==>
              && (Models.FindRoom(s.rooms, room).Some? || |room| <= Models.RoomNameMax)
              && Iterate(attachments).Ok? && MediaFits(Iterate(attachments).value)
    ensures !(Models.FindRoom(s.rooms, room).Some? || |room| <= Models.RoomNameMax) ==> r == Saved(s, Raised(DatabaseError))
    ensures (Models.FindRoom(s.rooms, room).Some? || |room| <= Models.RoomNameMax) && Iterate(attachments).Err? ==>
              r.outcome == Raised(Iterate(attachments).error)
    ensures r.outcome.Raised? ==> r.outcome.error in {AttributeError, TypeError, DatabaseError}
  {
    var w := Models.GetOrCreateRoom(s, Some(room), now);
    if w.result.Err? then Saved(w.store, Raised(w.result.error))
    else
      assert Models.FindRoom(w.store.rooms, room) == Some(w.result.value) by {
        if w.store != s {
          assert forall x :: x in s.rooms ==> x.name != room;
        }
      }
      WriteMessage(w.store, w.result.value.id, Models.FindUser(s.users, username), content, attachments, now)
  }

  /** `receive`: decode the frame, classify it, then run the branch. A frame on a connection
      that is not live is never dispatched. */
  function Receive(h: Hub, ch: Channel, frame: Frame, now: int): (r: Step)
    ensures r.hub.online == h.online && r.hub.groups == h.groups && r.hub.sessions == h.sessions
    ensures !Live(h, ch) ==> r == Step(h, Done)
    ensures Live(h, ch) && frame.Malformed? ==> r == Step(h, Raised(JsonDecodeError))
    ensures Live(h, ch) && frame.NoText? ==> r == Step(h, Done)
    ensures Live(h, ch) && Decode(frame).Ok? && Classify(Decode(frame).value).Err? ==>
              r == Step(h, Raised(Classify(Decode(frame).value).error))
  {
    if !Live(h, ch) then Step(h, Done)
    else
      match Decode(frame)
      case Err(e) => Step(h, Raised(e))
      case Ok(data) =>
        match Classify(data)
        case Err(e) => Step(h, Raised(e))
        case Ok(kind) => Handle(h, ch, data.fields, kind, now)
  }

  /** The branch of `receive` for a classified frame `d` from the consumer on `ch`. */
  function Handle(h: Hub, ch: Channel, d: map<string, Value>, kind: Kind, now: int): (r: Step)
    requires ch in h.sessions
    ensures r.hub.online == h.online && r.hub.groups == h.groups && r.hub.sessions == h.sessions
  {
    var s := h.sessions[ch];
    var sender := Username(s.user);
    match kind
    case Signal =>
      Step(Broadcast(h, s.room, SignalEvent(d["from" := Str(sender)])), Done)
    case Typing =>
      Step(Broadcast(h, s.room, TypingEvent(sender)), Done)
    case Media =>
      var atts := Arr([MediaAttachment(d)]);
      var sent := Broadcast(h, s.room, ChatMessage(Str(""), sender, atts, Null));
      var saved := SaveMessage(sent.store, sender, s.room, Str(""), atts, now);
      Step(sent.(store := saved.store), saved.outcome)
    case Text =>
      var message := GetOr(d, "message", Str(""));
      var atts := GetOr(d, "attachments", Arr([]));
      var sent := Broadcast(h, s.room, ChatMessage(message, sender, atts, Get(d, "reply_to")));
      var saved := SaveMessage(sent.store, sender, s.room, message, atts, now);
      Step(sent.(store := saved.store), saved.outcome)
    case Drop =>
      Step(h, Done)
  }
}

=== FILE: consumer_props.dfy ===
/** Properties of the consumer state machine: what each kind of inbound event does to
    presence, groups, outboxes and the store, and the hub invariant every transition keeps. */
module ConsumerProps {
  import opened Base
  import opened Json
  import Models
  import opened Consumer

  /** The hub invariant: the store keeps the schema's guarantees and the connections are wired. */
  predicate Valid(h: Hub) {
    Models.Valid(h.store) && Wired(h)
  }

  /** Every group member is a live consumer of that group's room, in a group whose name the
      channel layer accepts, and every live consumer is an authenticated member of its room's
      group. */
  predicate Wired(h: Hub) {
    && (forall g, c :: g in h.groups && c in h.groups[g] ==> Live(h, c) && GroupName(h.sessions[c].room) == g)
    && (forall g :: g in h.groups && h.groups[g] != {} ==> ValidGroupName(g))
    && (forall c :: c in h.sessions && h.sessions[c].open ==> h.sessions[c].user.Authenticated? && c in Members(h, h.sessions[c].room))
  }

  function Sender(h: Hub, ch: Channel): string
    requires ch in h.sessions
  {
    Username(h.sessions[ch].user)
  }

  function RoomOf(h: Hub, ch: Channel): string
    requires ch in h.sessions
  {
    h.sessions[ch].room
  }

  // ---------------------------------------------------------------------------------------
  // Connection lifecycle
  // ---------------------------------------------------------------------------------------

  /** Which rooms can be joined, in terms of the room name alone: fewer than 95 characters
      (the group name adds five), each an allowed one, except that the last may be a newline. */
  lemma {:induction false} JoinableRoom(room: string)
    ensures ValidGroupName(GroupName(room)) <==>
              && |room| < MaxNameLength - 5
              && forall i :: 0 <= i < |room| ==> GroupNameChar(room[i]) || (i == |room| - 1 && room[i] == '\n')
  {
    var g := GroupName(room);
    var n := |room|;
    var body := PatternBody(g);
    var kept := if room != [] && room[n - 1] == '\n' then n - 1 else n;
    assert |body| == kept + 5;
    assert forall i :: 0 <= i < kept ==> body[i + 5] == room[i];
    if forall i :: 0 <= i < n ==> GroupNameChar(room[i]) || (i == n - 1 && room[i] == '\n') {
      forall j | 0 <= j < |body|
        ensures GroupNameChar(body[j])
      {
        if j >= 5 {
          assert body[j] == room[j - 5];
        }
      }
    }
    if AllGroupNameChars(body) {
      forall i | 0 <= i < n
        ensures GroupNameChar(room[i]) || (i == n - 1 && room[i] == '\n')
      {
        if i < kept {
          assert room[i] == body[i + 5];
        }
      }
    }
  }

  /** A live consumer's room has a group name the channel layer accepts: its connect could
      not have got past `group_add` otherwise. */
  lemma LiveRoomIsValid(h: Hub, c: Channel)
    requires Wired(h)
    requires Live(h, c)
    ensures ValidGroupName(GroupName(RoomOf(h, c)))
  {
    assert c in Members(h, RoomOf(h, c));
  }

  /** A connection that disconnected is in no group and no later broadcast reaches it. */
  lemma DisconnectedHearsNothing(h: Hub, ch: Channel, room: string, ev: Event)
    requires Wired(h)
    requires ch in h.sessions
    ensures var d := Disconnect(h, ch).hub;
            && (forall g :: g in d.groups ==> ch !in d.groups[g])
            && OutboxOf(Broadcast(d, room, ev).outbox, ch) == OutboxOf(d.outbox, ch)
  {
    var d := Disconnect(h, ch).hub;
    if Live(h, ch) {
      LiveRoomIsValid(h, ch);
    }
    forall g | g in d.groups
      ensures ch !in d.groups[g]
    {
      if g != GroupName(RoomOf(h, ch)) || !Live(h, ch) {
        assert GroupOf(d.groups, g) == GroupOf(h.groups, g) - {ch} || GroupOf(d.groups, g) == GroupOf(h.groups, g);
      }
    }
  }

  /** Presence is keyed by username: when the same user has two connections to a room, the
      first disconnect removes the name although the second connection is still live. */
  lemma SharedPresenceEntry(h: Hub, c1: Channel, c2: Channel, name: string, room: string)
    requires c1 != c2
    requires ValidGroupName(GroupName(room))
    ensures var h2 := Connect(Connect(h, c1, Authenticated(name), room).hub, c2, Authenticated(name), room).hub;
            var h3 := Disconnect(h2, c1);
            && h3.outcome.Done?
            && name !in Present(h3.hub.online, room)
            && Live(h3.hub, c2)
            && c2 in Members(h3.hub, room)
            && OutboxOf(h3.hub.outbox, c2) == OutboxOf(h2.outbox, c2) + [PresenceNote(UserLeave, name)]
  {
    var h1 := Connect(h, c1, Authenticated(name), room).hub;
    var h2 := Connect(h1, c2, Authenticated(name), room).hub;
    JoinOutboxes(h1, c2, name, room);
    DisconnectOutboxes(h2, c1);
    assert name in Present(h2.online, room);
    assert Live(h2, c2) && c2 in Members(h2, room);
  }

  /** An authenticated user whose room's group name is refused never becomes live and leaves
      presence, groups and outboxes as they were. */
  lemma RefusedRoomConnect(h: Hub, ch: Channel, name: string, room: string)
    requires !ValidGroupName(GroupName(room))
    ensures var r := Connect(h, ch, Authenticated(name), room);
            && r.outcome == Raised(TypeError)
            && !Live(r.hub, ch)
            && r.hub.online == h.online && r.hub.groups == h.groups && r.hub.outbox == h.outbox
  {
  }

  lemma ConnectWired(h: Hub, ch: Channel, user: Identity, room: string)
    requires Wired(h)
    requires !Live(h, ch)
    ensures Wired(Connect(h, ch, user, room).hub)
  {
    var r := Connect(h, ch, user, room).hub;
    forall g, c | g in r.groups && c in r.groups[g]
      ensures Live(r, c) && GroupName(r.sessions[c].room) == g
    {
      if c in GroupOf(h.groups, g) {
        assert g in h.groups && c in h.groups[g];
      } else {
        assert r.sessions[ch].open && g == GroupName(room);
      }
    }
    forall c | Live(r, c)
      ensures r.sessions[c].user.Authenticated? && c in Members(r, r.sessions[c].room)
    {
      if c != ch {
        assert Live(h, c);
        var room' := h.sessions[c].room;
        assert c in Members(h, room');
        if r.sessions[ch].open && GroupName(room') == GroupName(room) {
          assert c in Members(r, room);
        }
      }
    }
  }

  lemma ConnectValid(h: Hub, ch: Channel, user: Identity, room: string)
    requires Valid(h)
    requires !Live(h, ch)
    ensures Valid(Connect(h, ch, user, room).hub)
  {
    ConnectWired(h, ch, user, room);
  }

  /** Disconnect touches membership in exactly two places: the session closes and, when the
      group name is accepted, the channel leaves its room's group. */
  lemma DisconnectShape(h: Hub, ch: Channel)
    requires ch in h.sessions
    ensures var r := Disconnect(h, ch);
            && r.hub.sessions == h.sessions[ch := h.sessions[ch].(open := false)]
            && r.hub.groups == (if r.outcome.Done? then Discard(h.groups, GroupName(RoomOf(h, ch)), ch) else h.groups)
  {
  }

  lemma DisconnectWired(h: Hub, ch: Channel)
    requires Wired(h)
    ensures Wired(Disconnect(h, ch).hub)
  {
    var r := Disconnect(h, ch).hub;
    if ch in h.sessions {
      DisconnectShape(h, ch);
      if Live(h, ch) {
        LiveRoomIsValid(h, ch);
      }
      forall g, c | g in r.groups && c in r.groups[g]
        ensures Live(r, c) && GroupName(r.sessions[c].room) == g
      {
        assert c in h.groups[g] && c != ch;
      }
      forall c | Live(r, c)
        ensures r.sessions[c].user.Authenticated? && c in Members(r, r.sessions[c].room)
      {
        assert Live(h, c) && c != ch;
        assert c in Members(h, h.sessions[c].room);
      }
    }
  }

  lemma DisconnectValid(h: Hub, ch: Channel)
    requires Valid(h)
    ensures Valid(Disconnect(h, ch).hub)
  {
    DisconnectWired(h, ch);
  }

  /** On a hub that keeps the invariant, disconnecting a live connection never raises. */
  lemma LiveDisconnectSucceeds(h: Hub, ch: Channel)
    requires Wired(h)
    requires Live(h, ch)
    ensures Disconnect(h, ch).outcome == Done
  {
    LiveRoomIsValid(h, ch);
  }

  // ---------------------------------------------------------------------------------------
  // The four branches of receive
  // ---------------------------------------------------------------------------------------

  /** A frame whose type names a call signal is relayed to every live member with `from`
      set to the sender, whatever else the frame holds; nothing is persisted. */
  lemma SignalTakesPriority(h: Hub, ch: Channel, d: map<string, Value>, now: int)
    requires Live(h, ch)
    requires Get(d, "type").Str? && Get(d, "type").s in SignalTypes
    ensures var r := Receive(h, ch, Parsed(Obj(d)), now);
            && r.outcome == Done
            && r.hub.store == h.store
            && (forall c :: c in Members(h, RoomOf(h, ch)) && Live(h, c) ==>
                  OutboxOf(r.hub.outbox, c) == OutboxOf(h.outbox, c) + [SignalRelay(d["from" := Str(Sender(h, ch))])])
            && (forall c :: !(c in Members(h, RoomOf(h, ch)) && Live(h, c)) ==>
                  OutboxOf(r.hub.outbox, c) == OutboxOf(h.outbox, c))
  {
    assert Classify(Obj(d)) == Ok(Signal);
  }

  /** A typing frame reaches every live member except those serving the sender's username,
      the sender's own connection included; nothing is persisted. */
  lemma TypingNotEchoed(h: Hub, ch: Channel, d: map<string, Value>, now: int)
    requires Live(h, ch)
    requires Get(d, "type") == Str("typing")
    ensures var r := Receive(h, ch, Parsed(Obj(d)), now);
            && r.outcome == Done
            && r.hub.store == h.store
            && OutboxOf(r.hub.outbox, ch) == OutboxOf(h.outbox, ch)
            && (forall c :: c in h.sessions && Username(h.sessions[c].user) == Sender(h, ch) ==>
                  OutboxOf(r.hub.outbox, c) == OutboxOf(h.outbox, c))
            && (forall c :: c in Members(h, RoomOf(h, ch)) && Live(h, c) && Username(h.sessions[c].user) != Sender(h, ch) ==>
                  OutboxOf(r.hub.outbox, c) == OutboxOf(h.outbox, c) + [TypingNote(Sender(h, ch))])
            && (forall c :: !(c in Members(h, RoomOf(h, ch)) && Live(h, c)) ==>
                  OutboxOf(r.hub.outbox, c) == OutboxOf(h.outbox, c))
  {
    assert Classify(Obj(d)) == Ok(Typing);
  }

  /** The store of a Receive step when the message row could be written. */
  predicate RoomWritable(s: Models.Store, room: string) {
    Models.FindRoom(s.rooms, room).Some? || |room| <= Models.RoomNameMax
  }

  /** A media frame is broadcast, to the room's live members only, as one attachment with
      empty text, and then handed to `_save_message` as empty content with that one-element
      attachment list. When the room can be written this stores one Message by the sender in
      that room, with at most one media row. */
  lemma MediaEventPersistsOneMessage(h: Hub, ch: Channel, d: map<string, Value>, now: int)
    requires Live(h, ch)
    requires Get(d, "type") == Str("media")
    ensures var r := Receive(h, ch, Parsed(Obj(d)), now);
            var att := MediaAttachment(d);
            var saved := SaveMessage(h.store, Sender(h, ch), RoomOf(h, ch), Str(""), Arr([att]), now);
            && att == Obj(map["type" := Get(d, "media_type"), "url" := Get(d, "media_url"),
                              "name" := GetOr(d, "name", Str("")), "duration" := GetOr(d, "duration", Str(""))])
            && (forall c :: c in Members(h, RoomOf(h, ch)) && Live(h, c) ==>
                  OutboxOf(r.hub.outbox, c) == OutboxOf(h.outbox, c) + [ChatOut(Str(""), Sender(h, ch), Arr([att]), None)])
            && (forall c :: !(c in Members(h, RoomOf(h, ch)) && Live(h, c)) ==>
                  OutboxOf(r.hub.outbox, c) == OutboxOf(h.outbox, c))
            && r.hub.store == saved.store && r.outcome == saved.outcome
  {
    assert Classify(Obj(d)) == Ok(Media);
    var att := MediaAttachment(d);
    var room := RoomOf(h, ch);
    var sent := Broadcast(h, room, ChatMessage(Str(""), Sender(h, ch), Arr([att]), Null));
    assert sent.store == h.store;
  }

  /** The Message a media frame stores: empty content, the one attachment, the sender as
      author (when an account has that name) and the sender's room. */
  lemma MediaEventRow(h: Hub, ch: Channel, d: map<string, Value>, now: int)
    requires Live(h, ch)
    requires Get(d, "type") == Str("media")
    ensures var r := Receive(h, ch, Parsed(Obj(d)), now);
            var s := r.hub.store;
            && (|s.messages| == |h.store.messages| + 1 <==> RoomWritable(h.store, RoomOf(h, ch)))
            && (|s.messages| == |h.store.messages| + 1 ==>
                  var m := s.messages[|h.store.messages|];
                  && m.content == Str("")
                  && m.attachments == Arr([MediaAttachment(d)])
                  && m.user == Models.FindUser(h.store.users, Sender(h, ch))
                  && Models.FindRoom(s.rooms, RoomOf(h, ch)).Some?
                  && m.room == Models.FindRoom(s.rooms, RoomOf(h, ch)).value.id)
            && |s.media| <= |h.store.media| + 1
  {
    MediaEventPersistsOneMessage(h, ch, d, now);
  }

  /** A frame that is not a signal, typing or media frame is broadcast and persisted exactly
      when its `message` or its `attachments` is truthy; otherwise nothing at all changes. */
  lemma TextEventIff(h: Hub, ch: Channel, d: map<string, Value>, now: int)
    requires Live(h, ch)
    requires ch in Members(h, RoomOf(h, ch))
    requires Hashable(Get(d, "type"))
    requires Get(d, "type") !in {Str("typing"), Str("media")}
    requires !(Get(d, "type").Str? && Get(d, "type").s in SignalTypes)
    ensures var r := Receive(h, ch, Parsed(Obj(d)), now);
            var message := GetOr(d, "message", Str(""));
            var atts := GetOr(d, "attachments", Arr([]));
            && (Truthy(message) || Truthy(atts) <==> OutboxOf(r.hub.outbox, ch) != OutboxOf(h.outbox, ch))
            && (!(Truthy(message) || Truthy(atts)) ==> r == Step(h, Done))
            && (Truthy(message) || Truthy(atts) ==>
                  && (forall c :: c in Members(h, RoomOf(h, ch)) && Live(h, c) ==>
                        OutboxOf(r.hub.outbox, c) == OutboxOf(h.outbox, c) +
                          [ChatOut(message, Sender(h, ch), atts, if Truthy(Get(d, "reply_to")) then Some(Get(d, "reply_to")) else None)])
                  && (RoomWritable(h.store, RoomOf(h, ch)) <==> |r.hub.store.messages| == |h.store.messages| + 1)
                  && r.hub.store == SaveMessage(h.store, Sender(h, ch), RoomOf(h, ch), message, atts, now).store
                  && r.outcome == SaveMessage(h.store, Sender(h, ch), RoomOf(h, ch), message, atts, now).outcome)
            && (forall c :: !(c in Members(h, RoomOf(h, ch)) && Live(h, c)) ==>
                  OutboxOf(r.hub.outbox, c) == OutboxOf(h.outbox, c))
  {
    var r := Receive(h, ch, Parsed(Obj(d)), now);
    var message := GetOr(d, "message", Str(""));
    var atts := GetOr(d, "attachments", Arr([]));
    if Truthy(message) || Truthy(atts) {
      assert Classify(Obj(d)) == Ok(Text);
      var sent := Broadcast(h, RoomOf(h, ch), ChatMessage(message, Sender(h, ch), atts, Get(d, "reply_to")));
      assert sent.store == h.store;
      assert OutboxOf(r.hub.outbox, ch) == OutboxOf(h.outbox, ch) + Deliver(h.sessions[ch].user, ChatMessage(message, Sender(h, ch), atts, Get(d, "reply_to")));
    } else {
      assert Classify(Obj(d)) == Ok(Drop);
    }
  }

  /** An empty frame decodes to `{}` and is dropped; a malformed one raises and changes nothing. */
  lemma EmptyAndMalformedFrames(h: Hub, ch: Channel, now: int)
    ensures Receive(h, ch, NoText, now).hub == h
    ensures Live(h, ch) ==> Receive(h, ch, Malformed, now) == Step(h, Raised(JsonDecodeError))
    ensures Classify(Obj(map[])) == Ok(Drop)
  {
  }

  /** `reply_to` is broadcast but never persisted: two text frames that differ only in their
      `reply_to` leave the same store behind. */
  lemma ReplyToNotPersisted(h: Hub, ch: Channel, d: map<string, Value>, reply: Value, now: int)
    requires Live(h, ch)
    requires "reply_to" !in d
    ensures var r1 := Receive(h, ch, Parsed(Obj(d)), now);
            var r2 := Receive(h, ch, Parsed(Obj(d["reply_to" := reply])), now);
            r1.hub.store == r2.hub.store && r1.outcome == r2.outcome
  {
    var d2 := d["reply_to" := reply];
    assert Get(d2, "type") == Get(d, "type");
    assert GetOr(d2, "message", Str("")) == GetOr(d, "message", Str(""));
    assert GetOr(d2, "attachments", Arr([])) == GetOr(d, "attachments", Arr([]));
    assert MediaAttachment(d2) == MediaAttachment(d);
    assert Classify(Obj(d2)) == Classify(Obj(d));
  }

  /** Whether `receive` reaches `_save_message` for this frame: the connection is live and the
      frame is a well-formed media or text event. */
  predicate Saves(h: Hub, ch: Channel, frame: Frame) {
    && Live(h, ch) && Decode(frame).Ok?
    && Classify(Decode(frame).value) in {Ok(Media), Ok(Text)}
  }

  /** The content and attachments a saving branch hands to `_save_message`: the media branch
      saves empty text with its one attachment, the text branch the frame's own `message` and
      `attachments`. */
  function SavedFields(d: map<string, Value>, k: Kind): (Value, Value) {
    if k == Media then (Str(""), Arr([MediaAttachment(d)]))
    else (GetOr(d, "message", Str("")), GetOr(d, "attachments", Arr([])))
  }

  /** What `receive` did to the store: nothing, unless the frame reaches a saving branch, and
      then exactly one `_save_message` of the sender's room with that branch's own content and
      attachments, at least one of them truthy. */
  lemma ReceiveStoreStep(h: Hub, ch: Channel, frame: Frame, now: int)
    ensures var r := Receive(h, ch, frame, now);
            && (!Saves(h, ch, frame) ==> r.hub.store == h.store)
            && (Saves(h, ch, frame) ==>
                  var f := SavedFields(Decode(frame).value.fields, Classify(Decode(frame).value).value);
                  var saved := SaveMessage(h.store, Sender(h, ch), RoomOf(h, ch), f.0, f.1, now);
                  && (Truthy(f.0) || Truthy(f.1))
                  && r.hub.store == saved.store && r.outcome == saved.outcome)
  {
    var r := Receive(h, ch, frame, now);
    if Live(h, ch) && Decode(frame).Ok? && Classify(Decode(frame).value).Ok? {
      var d := Decode(frame).value.fields;
      var k := Classify(Decode(frame).value).value;
      var sender := Sender(h, ch);
      var room := RoomOf(h, ch);
      if k == Media {
        var atts := Arr([MediaAttachment(d)]);
        var sent := Broadcast(h, room, ChatMessage(Str(""), sender, atts, Null));
        assert sent.store == h.store;
        assert Truthy(atts);
      } else if k == Text {
        var message := GetOr(d, "message", Str(""));
        var atts := GetOr(d, "attachments", Arr([]));
        var sent := Broadcast(h, room, ChatMessage(message, sender, atts, Get(d, "reply_to")));
        assert sent.store == h.store;
        assert Truthy(message) || Truthy(atts);
      } else {
        assert r.hub.store == h.store;
      }
    } else {
      assert r.hub.store == h.store;
    }
  }

  /** The row `_save_message` writes carries whatever made the frame worth saving. */
  lemma SavedMessageNonEmpty(s: Models.Store, username: string, room: string, content: Value, atts: Value, now: int)
    requires Truthy(content) || Truthy(atts)
    ensures var s' := SaveMessage(s, username, room, content, atts, now).store;
            forall i :: |s.messages| <= i < |s'.messages| ==>
              Truthy(s'.messages[i].content) || Truthy(s'.messages[i].attachments)
  {
    var s' := SaveMessage(s, username, room, content, atts, now).store;
    if |s'.messages| == |s.messages| + 1 {
      var m := s'.messages[|s.messages|];
      assert Truthy(m.content) || Truthy(m.attachments) by {
        if !Truthy(content) {
          assert m.attachments == atts;
        }
      }
    }
  }

  /** Every Message a Receive step persists has truthy content or truthy attachments. */
  lemma PersistedMessagesNonEmpty(h: Hub, ch: Channel, frame: Frame, now: int)
    ensures var r := Receive(h, ch, frame, now);
            forall i :: |h.store.messages| <= i < |r.hub.store.messages| ==>
              Truthy(r.hub.store.messages[i].content) || Truthy(r.hub.store.messages[i].attachments)
  {
    ReceiveStoreStep(h, ch, frame, now);
    if Saves(h, ch, frame) {
      var f := SavedFields(Decode(frame).value.fields, Classify(Decode(frame).value).value);
      var content, atts := f.0, f.1;
      SavedMessageNonEmpty(h.store, Sender(h, ch), RoomOf(h, ch), content, atts, now);
    }
  }

  // ---------------------------------------------------------------------------------------
  // Persistence keeps the schema's guarantees
  // ---------------------------------------------------------------------------------------

  lemma {:induction false} SaveMediaValid(s: Models.Store, msg: nat, items: seq<Value>, now: int)
    requires Models.Valid(s)
    ensures Models.Valid(SaveMedia(s, msg, items, now).store)
    decreases items
  {
    if items != [] && items[0].Obj? {
      var att := items[0].fields;
      if !Truthy(Get(att, "url")) {
        SaveMediaValid(s, msg, items[1..], now);
      } else {
        var sp := SpecOf(att);
        var w := Models.CreateMediaFile(s, msg, sp.url, sp.mediaType, sp.name, sp.duration, now);
        Models.CreateMediaFileValid(s, msg, sp.url, sp.mediaType, sp.name, sp.duration, now);
        if w.result.Ok? {
          SaveMediaValid(w.store, msg, items[1..], now);
        }
      }
    }
  }

  lemma WriteMessageValid(s: Models.Store, room: nat, user: Option<nat>, content: Value, attachments: Value, now: int)
    requires Models.Valid(s)
    requires room in Models.RoomIds(s.rooms)
    requires user.Some? ==> user.value in Models.UserIds(s.users)
    ensures Models.Valid(WriteMessage(s, room, user, content, attachments, now).store)
  {
    var c := if Truthy(content) then content else Str("");
    var a := if Truthy(attachments) then attachments else Arr([]);
    var mw := Models.CreateMessage(s, room, user, c, a, now);
    Models.CreateMessageValid(s, room, user, c, a, now);
    if Iterate(attachments).Ok? {
      SaveMediaValid(mw.store, mw.result.value.id, Iterate(attachments).value, now);
    }
  }

  lemma SaveMessageValid(s: Models.Store, username: string, room: string, content: Value, attachments: Value, now: int)
    requires Models.Valid(s)
    ensures Models.Valid(SaveMessage(s, username, room, content, attachments, now).store)
  {
    var w := Models.GetOrCreateRoom(s, Some(room), now);
    Models.GetOrCreateRoomValid(s, Some(room), now);
    if w.result.Ok? {
      var user := Models.FindUser(s.users, username);
      assert w.store.users == s.users;
      assert w.result.value.id in Models.RoomIds(w.store.rooms);
      WriteMessageValid(w.store, w.result.value.id, user, content, attachments, now);
      assert SaveMessage(s, username, room, content, attachments, now)
          == WriteMessage(w.store, w.result.value.id, user, content, attachments, now);
    }
  }

  lemma ReceiveStoreValid(h: Hub, ch: Channel, frame: Frame, now: int)
    requires Models.Valid(h.store)
    ensures Models.Valid(Receive(h, ch, frame, now).hub.store)
  {
    ReceiveStoreStep(h, ch, frame, now);
    if Saves(h, ch, frame) {
      var f := SavedFields(Decode(frame).value.fields, Classify(Decode(frame).value).value);
      var content, atts := f.0, f.1;
      SaveMessageValid(h.store, Sender(h, ch), RoomOf(h, ch), content, atts, now);
    }
  }

  /** Only the store and the outboxes differ between the two hubs. */
  lemma SameMembershipValid(h: Hub, h': Hub)
    requires Valid(h)
    requires h'.sessions == h.sessions && h'.groups == h.groups
    requires Models.Valid(h'.store)
    ensures Valid(h')
  {
    assert forall c :: Live(h', c) == Live(h, c);
    assert forall room :: Members(h', room) == Members(h, room);
  }

  lemma ReceiveValid(h: Hub, ch: Channel, frame: Frame, now: int)
    requires Valid(h)
    ensures Valid(Receive(h, ch, frame, now).hub)
  {
    ReceiveStoreValid(h, ch, frame, now);
    SameMembershipValid(h, Receive(h, ch, frame, now).hub);
  }
}

=== FILE: json.dfy ===
/** Decoded JSON values as Python sees them after `json.loads`. */
module Json {

  /** JSON numbers are modelled as integers. */
  datatype Value =
    | Null
    | Bool(b: bool)
    | Num(n: int)
    | Str(s: string)
    | Arr(items: seq<Value>)
    | Obj(fields: map<string, Value>)

  /** Python truthiness: None, False, 0 and empty str/list/dict are false. */
  predicate Truthy(v: Value) {
    match v
    case Null => false
    case Bool(b) => b
    case Num(n) => n != 0
    case Str(s) => |s| > 0
    case Arr(items) => |items| > 0
    case Obj(fields) => |fields| > 0
  }

  /** Lists and dicts cannot be hashed, so `v in some_set` raises for them. */
  predicate Hashable(v: Value) {
    !v.Arr? && !v.Obj?
  }

  /** `d.get(key, default)`: the default only replaces an ABSENT key, not a null one. */
  function GetOr(d: map<string, Value>, key: string, default: Value): Value {
    if key in d then d[key] else default
  }

  /** `d.get(key)`. */
  function Get(d: map<string, Value>, key: string): Value {
    GetOr(d, key, Null)
  }
}

=== FILE: media_upload.dfy ===
/** `upload_media`: the HTTP endpoint the input bar posts a file to before announcing it over
    the socket. It ensures the room, classifies the file by its guessed MIME type, stores it
    under a room- and time-stamped name and answers with the public URL.

    The file store is a map from a path under the media root to the bytes stored there. What
    the view takes from its environment is passed in: the MIME type guessed from the file
    name, the `%Y%m%d_%H%M%S` stamp of the current time, and the name the storage picks when
    the wanted one is taken. */
module MediaUpload {
  import opened Base
  import Models

  /** URL prefix the storage serves the media root under. */
  const MediaUrl: string := "/media/"
  /** Directory, under the media root, that uploads are stored in. */
  const MediaDir: string := "media"

  datatype UploadedFile = UploadedFile(name: string, content: seq<byte>)

  /** The parts of the request the view reads: the method, the `file` part if any and the
      `room` form field if any. */
  datatype MediaRequest = MediaRequest(verb: string, file: Option<UploadedFile>, room: Option<string>)

  datatype MediaResponse =
    | BadRequest(error: string)
    | ServerError
    | Uploaded(url: string, mediaType: string)

  /** The HTTP status each response is sent with. */
  function Status(r: MediaResponse): int {
    match r
    case BadRequest(_) => 400
    case ServerError => 500
    case Uploaded(_, _) => 200
  }

  datatype Upload = Upload(store: Models.Store, files: map<string, seq<byte>>, response: MediaResponse)

  /** The media kind of a guessed MIME type: images, videos and audio by their top-level type,
      everything else (and no guess at all) a plain file. */
  function MediaKind(mime: Option<string>): (k: string)
    ensures k in {"image", "video", "audio", "file"}
    ensures k == "image" <==> mime.Some? && "image" <= mime.value
    ensures k == "video" <==> mime.Some? && "video" <= mime.value
    ensures k == "audio" <==> mime.Some? && "audio" <= mime.value
  {
    if mime.None? then "file"
    else if "image" <= mime.value then "image"
    else if "video" <= mime.value then "video"
    else if "audio" <= mime.value then "audio"
    else "file"
  }

  /** The name asked of the storage: `media/<room>_<stamp>_<original name>`. */
  function StoragePath(room: string, stamp: string, fileName: string): (p: string)
    ensures |p| == |MediaDir| + |room| + |stamp| + |fileName| + 3
    ensures MediaDir + "/" + room + "_" <= p
    ensures p[|p| - |fileName|..] == fileName
    ensures p[|p| - |fileName| - |stamp| - 1..|p| - |fileName|] == stamp + "_"
  {
    MediaDir + "/" + room + "_" + stamp + "_" + fileName
  }

  /** `upload_media`. Requests that are not POSTs, or carry no file, are refused before
      anything is touched. The room is got or created next: a missing room field or a name too
      long for the column raises in the database and the request fails with nothing stored.
      Otherwise the bytes are saved under the wanted name, or under `alt` when that name is
      taken, and the response carries the URL of what was saved and the media kind. */
  function UploadMedia(s: Models.Store, files: map<string, seq<byte>>, req: MediaRequest,
                       mime: Option<string>, stamp: string, alt: string, now: int): (r: Upload)
    requires req.file.Some? && req.room.Some? ==>
               StoragePath(req.room.value, stamp, req.file.value.name) in files ==> alt !in files
    ensures req.verb != "POST" ==> r == Upload(s, files, BadRequest("Invalid request"))
    ensures req.verb == "POST" && req.file.None? ==> r == Upload(s, files, BadRequest("No file uploaded"))
    ensures r.response.Uploaded? <==>
              && req.verb == "POST" && req.file.Some? && req.room.Some?
              && (Models.FindRoom(s.rooms, req.room.value).Some? || |req.room.value| <= Models.RoomNameMax)
    ensures r.response.ServerError? ==> r.store == s && r.files == files
    ensures req.verb == "POST" && req.file.Some? && !r.response.Uploaded? ==> r == Upload(s, files, ServerError)
    ensures r.response.Uploaded? ==>
              var path := StoragePath(req.room.value, stamp, req.file.value.name);
              var saved := if path in files then alt else path;
              && saved !in files
              && r.files == files[saved := req.file.value.content]
              && r.response.url == MediaUrl + saved
              && r.response.mediaType == MediaKind(mime)
              && Models.FindRoom(r.store.rooms, req.room.value).Some?
    ensures r.store.messages == s.messages && r.store.media == s.media && r.store.users == s.users
  {
    if req.verb != "POST" then Upload(s, files, BadRequest("Invalid request"))
    else if req.file.None? then Upload(s, files, BadRequest("No file uploaded"))
    else
      var w := Models.GetOrCreateRoom(s, req.room, now);
      if w.result.Err? then Upload(s, files, ServerError)
      else
        var file := req.file.value;
        var path := StoragePath(req.room.value, stamp, file.name);
        var saved := if path in files then alt else path;
        assert Models.FindRoom(w.store.rooms, req.room.value).Some? by {
          if w.store != s {
            assert forall x :: x in s.rooms ==> x.name != req.room.value;
          }
        }
        Upload(w.store, files[saved := file.content], Uploaded(MediaUrl + saved, MediaKind(mime)))
  }

  /** An upload never overwrites a stored file and never loses one: every path stored before
      still holds the same bytes, and at most one path is added. */
  lemma UploadKeepsFiles(s: Models.Store, files: map<string, seq<byte>>, req: MediaRequest,
                         mime: Option<string>, stamp: string, alt: string, now: int)
    requires req.file.Some? && req.room.Some? ==>
               StoragePath(req.room.value, stamp, req.file.value.name) in files ==> alt !in files
    ensures var r := UploadMedia(s, files, req, mime, stamp, alt, now);
            && (forall p :: p in files ==> p in r.files && r.files[p] == files[p])
            && |r.files.Keys - files.Keys| <= 1
            && (Status(r.response) != 200 ==> r.files == files)
  {
    var r := UploadMedia(s, files, req, mime, stamp, alt, now);
    if r.response.Uploaded? {
      var path := StoragePath(req.room.value, stamp, req.file.value.name);
      var saved := if path in files then alt else path;
      assert r.files.Keys - files.Keys == {saved};
    }
  }

  /** The store keeps the schema's guarantees, and the only change an upload makes to it is
      the named room, appended when no room of that name existed yet. */
  lemma UploadMediaValid(s: Models.Store, files: map<string, seq<byte>>, req: MediaRequest,
                         mime: Option<string>, stamp: string, alt: string, now: int)
    requires Models.Valid(s)
    requires req.file.Some? && req.room.Some? ==>
               StoragePath(req.room.value, stamp, req.file.value.name) in files ==> alt !in files
    ensures var r := UploadMedia(s, files, req, mime, stamp, alt, now);
            && Models.Valid(r.store)
            && (r.store != s ==> req.room.Some? && Models.FindRoom(s.rooms, req.room.value).None?
                                 && r.store.rooms == s.rooms + [r.store.rooms[|s.rooms|]])
  {
    if req.verb == "POST" && req.file.Some? {
      Models.GetOrCreateRoomValid(s, req.room, now);
    }
  }
}

=== FILE: models.dfy ===
/** The relational store of `chatapp/models.py` on PostgreSQL: tables as sequences of rows,
    the constraints the database enforces on every INSERT, and the cascade / set-null rules
    applied on delete. A write that violates a constraint leaves the store as it was and
    yields `DatabaseError`. */
module Models {
  import opened Base
  import opened Json
  import Seqs

  /** Column widths declared in the schema. */
  const RoomNameMax: nat := 255
  const MediaTypeMax: nat := 20
  const MediaNameMax: nat := 255
  const MediaDurationMax: nat := 20
  const CallPartyMax: nat := 150
  const CallRoomMax: nat := 150
  /** Width of the auth user's username column. */
  const UsernameMax: nat := 150
  /** Range of a PostgreSQL `integer` column (`IntegerField`). */
  const IntegerMin: int := -0x8000_0000
  const IntegerMax: int := 0x7fff_ffff

  datatype ChatRoom = ChatRoom(id: nat, name: string, createdAt: int)

  /** `user` is the nullable foreign key; `attachments` is the JSON column `attachments_json`.
      Text columns hold the value handed to the ORM. */
  datatype Message = Message(id: nat, room: nat, user: Option<nat>, content: Value, attachments: Value, timestamp: int)

  datatype MediaFile = MediaFile(id: nat, message: nat, fileUrl: Value, mediaType: Value, name: Value, duration: Value, uploadedAt: int)

  datatype CallRecording = CallRecording(
    id: nat, caller: string, receiver: string, roomName: Option<string>, fileUrl: string,
    duration: Option<int>, startedAt: int, endedAt: Option<int>, createdAt: int)

  /** The auth user row, reduced to what the application reads and writes. */
  datatype Account = Account(id: nat, username: string, isStaff: bool, isSuperuser: bool)

  /** All tables; `nextId` is the next primary key handed out (shared by all tables). */
  datatype Store = Store(
    rooms: seq<ChatRoom>, messages: seq<Message>, media: seq<MediaFile>,
    recordings: seq<CallRecording>, users: seq<Account>, nextId: nat)

  const EmptyStore := Store([], [], [], [], [], 1)

  /** A write: the store afterwards and what the ORM call returned or raised. */
  datatype Write<T> = Write(store: Store, result: Result<T>)

  function RoomIds(rooms: seq<ChatRoom>): set<nat> { set r | r in rooms :: r.id }
  function MessageIds(messages: seq<Message>): set<nat> { set m | m in messages :: m.id }
  function UserIds(users: seq<Account>): set<nat> { set u | u in users :: u.id }

  /** A NOT NULL `CharField(max_length)`: strings longer than `max` do not fit. */
  predicate FitsVarchar(v: Value, max: nat) {
    v != Null && (v.Str? ==> |v.s| <= max)
  }

  predicate MediaColumnsFit(url: Value, mediaType: Value, name: Value, duration: Value) {
    && url != Null
    && FitsVarchar(mediaType, MediaTypeMax)
    && FitsVarchar(name, MediaNameMax)
    && FitsVarchar(duration, MediaDurationMax)
  }

  predicate RecordingColumnsFit(caller: string, receiver: string, roomName: Option<string>, duration: Option<int>) {
    && |caller| <= CallPartyMax
    && |receiver| <= CallPartyMax
    && (roomName.Some? ==> |roomName.value| <= CallRoomMax)
    && (duration.Some? ==> IntegerMin <= duration.value <= IntegerMax)
  }

  predicate RoomsOk(s: Store) {
    && (forall r :: r in s.rooms ==> r.id < s.nextId && |r.name| <= RoomNameMax)
    && (forall r1, r2 :: r1 in s.rooms && r2 in s.rooms && r1.id == r2.id ==> r1 == r2)
    && (forall r1, r2 :: r1 in s.rooms && r2 in s.rooms && r1.name == r2.name ==> r1 == r2)
  }

  predicate MessagesOk(s: Store) {
    && (forall m :: m in s.messages ==>
          && m.id < s.nextId
          && m.room in RoomIds(s.rooms)
          && m.content != Null
          && (m.user.Some? ==> m.user.value in UserIds(s.users)))
    && (forall m1, m2 :: m1 in s.messages && m2 in s.messages && m1.id == m2.id ==> m1 == m2)
  }

  predicate MediaOk(s: Store) {
    && (forall f :: f in s.media ==>
          && f.id < s.nextId
          && f.message in MessageIds(s.messages)
          && MediaColumnsFit(f.fileUrl, f.mediaType, f.name, f.duration))
    && (forall f1, f2 :: f1 in s.media && f2 in s.media && f1.id == f2.id ==> f1 == f2)
  }

  predicate RecordingsOk(s: Store) {
    && (forall c :: c in s.recordings ==>
          c.id < s.nextId && RecordingColumnsFit(c.caller, c.receiver, c.roomName, c.duration))
    && (forall c1, c2 :: c1 in s.recordings && c2 in s.recordings && c1.id == c2.id ==> c1 == c2)
  }

  predicate UsersOk(s: Store) {
    && (forall u :: u in s.users ==> u.id < s.nextId && 0 < |u.username| <= UsernameMax)
    && (forall u1, u2 :: u1 in s.users && u2 in s.users && u1.id == u2.id ==> u1 == u2)
    && (forall u1, u2 :: u1 in s.users && u2 in s.users && u1.username == u2.username ==> u1 == u2)
  }

  /** Everything the schema guarantees about a store: unique keys and names, foreign keys
      that resolve, column widths and NOT NULL columns respected. */
  predicate Valid(s: Store) {
    RoomsOk(s) && MessagesOk(s) && MediaOk(s) && RecordingsOk(s) && UsersOk(s)
  }

  /** The empty database meets the schema's guarantees, so `Valid` is satisfiable and the
      preservation lemmas below are not vacuous. */
  lemma EmptyStoreValid()
    ensures Valid(EmptyStore)
  {
  }

  /** `ChatRoom.objects.filter(name=name).first()`. */
  function FindRoom(rooms: seq<ChatRoom>, name: string): (r: Option<ChatRoom>)
    ensures r.Some? ==> r.value in rooms && r.value.name == name
    ensures r.None? ==> forall x :: x in rooms ==> x.name != name
  {
    if rooms == [] then None
    else if rooms[0].name == name then Some(rooms[0])
    else FindRoom(rooms[1..], name)
  }

  /** `User.objects.filter(username=name).first()`, as a primary key. */
  function FindUser(users: seq<Account>, name: string): (r: Option<nat>)
    ensures r.Some? ==> r.value in UserIds(users)
    ensures r.None? ==> forall u :: u in users ==> u.username != name
    ensures r.Some? ==> exists u :: u in users && u.id == r.value && u.username == name
  {
    if users == [] then None
    else if users[0].username == name then Some(users[0].id)
    else FindUser(users[1..], name)
  }

  /** `ChatRoom.objects.get_or_create(name=name)`. A null name matches no row and its INSERT
      violates NOT NULL; a name wider than the column cannot exist and cannot be inserted. */
  function GetOrCreateRoom(s: Store, name: Option<string>, now: int): (w: Write<ChatRoom>)
    ensures w.result.Ok? <==> name.Some? && (FindRoom(s.rooms, name.value).Some? || |name.value| <= RoomNameMax)
    ensures w.result.Ok? ==> w.result.value.name == name.value && w.result.value in w.store.rooms
    ensures name.Some? && FindRoom(s.rooms, name.value).Some? ==> w.store == s
    ensures w.result.Err? ==> w.store == s && w.result.error == DatabaseError
    ensures w.result.Ok? && w.store != s ==>
              && w.store == s.(rooms := s.rooms + [w.result.value], nextId := s.nextId + 1)
              && w.result.value.id == s.nextId
  {
    if name.None? then Write(s, Err(DatabaseError))
    else
      match FindRoom(s.rooms, name.value)
      case Some(r) => Write(s, Ok(r))
      case None =>
        if |name.value| > RoomNameMax then Write(s, Err(DatabaseError))
        else
          var r := ChatRoom(s.nextId, name.value, now);
          Write(s.(rooms := s.rooms + [r], nextId := s.nextId + 1), Ok(r))
  }

  /** `Message.objects.create(...)`: content is NOT NULL and both foreign keys must resolve. */
  function CreateMessage(s: Store, room: nat, user: Option<nat>, content: Value, attachments: Value, now: int): (w: Write<Message>)
    ensures w.result.Ok? <==>
              content != Null && room in RoomIds(s.rooms) && (user.Some? ==> user.value in UserIds(s.users))
    ensures w.result.Err? ==> w.store == s
    ensures w.result.Ok? ==>
              && w.result.value == Message(s.nextId, room, user, content, attachments, now)
              && w.store == s.(messages := s.messages + [w.result.value], nextId := s.nextId + 1)
  {
    if content == Null || room !in RoomIds(s.rooms) || (user.Some? && user.value !in UserIds(s.users)) then
      Write(s, Err(DatabaseError))
    else
      var m := Message(s.nextId, room, user, content, attachments, now);
      Write(s.(messages := s.messages + [m], nextId := s.nextId + 1), Ok(m))
  }

  /** `MediaFile.objects.create(...)`: the columns must fit and the message must exist. */
  function CreateMediaFile(s: Store, message: nat, url: Value, mediaType: Value, name: Value, duration: Value, now: int): (w: Write<MediaFile>)
    ensures w.result.Ok? <==> message in MessageIds(s.messages) && MediaColumnsFit(url, mediaType, name, duration)
    ensures w.result.Err? ==> w.store == s
    ensures w.result.Ok? ==>
              && w.result.value == MediaFile(s.nextId, message, url, mediaType, name, duration, now)
              && w.store == s.(media := s.media + [w.result.value], nextId := s.nextId + 1)
  {
    if message !in MessageIds(s.messages) || !MediaColumnsFit(url, mediaType, name, duration) then
      Write(s, Err(DatabaseError))
    else
      var f := MediaFile(s.nextId, message, url, mediaType, name, duration, now);
      Write(s.(media := s.media + [f], nextId := s.nextId + 1), Ok(f))
  }

  /** `CallRecording.objects.create(...)`: a new recording has not ended yet and its start and
      creation times are both the insertion time. */
  function CreateRecording(s: Store, caller: string, receiver: string, roomName: Option<string>, fileUrl: string, duration: Option<int>, now: int): (w: Write<CallRecording>)
    ensures w.result.Ok? <==> RecordingColumnsFit(caller, receiver, roomName, duration)
    ensures w.result.Err? ==> w.store == s
    ensures w.result.Ok? ==>
              var c := w.result.value;
              && c.id == s.nextId
              && c.caller == caller && c.receiver == receiver && c.roomName == roomName
              && c.fileUrl == fileUrl && c.duration == duration
              && c.endedAt.None?
              && c.startedAt == c.createdAt == now
              && w.store == s.(recordings := s.recordings + [c], nextId := s.nextId + 1)
  {
    if !RecordingColumnsFit(caller, receiver, roomName, duration) then Write(s, Err(DatabaseError))
    else
      var c := CallRecording(s.nextId, caller, receiver, roomName, fileUrl, duration, now, None, now);
      Write(s.(recordings := s.recordings + [c], nextId := s.nextId + 1), Ok(c))
  }

  /** `User.objects.create_user(username=...)` followed by setting the two flags and saving.
      An empty username raises before any write; a taken or over-wide one fails the INSERT. */
  function CreateUser(s: Store, username: string, isStaff: bool, isSuperuser: bool): (w: Write<Account>)
    ensures w.result.Ok? <==>
              0 < |username| <= UsernameMax && forall u :: u in s.users ==> u.username != username
    ensures username == "" ==> w.result == Err(ValueError)
    ensures w.result.Err? ==> w.store == s
    ensures w.result.Ok? ==>
              && w.result.value.username == username
              && w.result.value.isStaff == isStaff
              && w.result.value.isSuperuser == isSuperuser
              && w.store == s.(users := s.users + [w.result.value], nextId := s.nextId + 1)
  {
    if username == "" then Write(s, Err(ValueError))
    else if |username| > UsernameMax || FindUser(s.users, username).Some? then Write(s, Err(DatabaseError))
    else
      var u := Account(s.nextId, username, isStaff, isSuperuser);
      Write(s.(users := s.users + [u], nextId := s.nextId + 1), Ok(u))
  }

  /** Deleting a message deletes its media files (CASCADE). */
  function DeleteMessage(s: Store, id: nat): (r: Store)
    ensures forall m :: m in r.messages <==> m in s.messages && m.id != id
    ensures forall f :: f in r.media <==> f in s.media && f.message != id
    ensures r.rooms == s.rooms && r.users == s.users && r.recordings == s.recordings
  {
    s.(messages := Seqs.Filter(s.messages, (m: Message) => m.id != id),
       media := Seqs.Filter(s.media, (f: MediaFile) => f.message != id))
  }

  /** Deleting a room deletes its messages (CASCADE) and their media files (CASCADE again). */
  function DeleteRoom(s: Store, id: nat): (r: Store)
    ensures forall x :: x in r.rooms <==> x in s.rooms && x.id != id
    ensures forall m :: m in r.messages <==> m in s.messages && m.room != id
    ensures forall f :: f in r.media <==>
              f in s.media && !(exists m :: m in s.messages && m.room == id && f.message == m.id)
    ensures r.users == s.users && r.recordings == s.recordings
  {
    var doomed := set m | m in s.messages && m.room == id :: m.id;
    s.(rooms := Seqs.Filter(s.rooms, (x: ChatRoom) => x.id != id),
       messages := Seqs.Filter(s.messages, (m: Message) => m.room != id),
       media := Seqs.Filter(s.media, (f: MediaFile) => f.message !in doomed))
  }

  /** Deleting a user keeps every message and nulls its author (SET_NULL). */
  function DeleteUser(s: Store, id: nat): (r: Store)
    ensures forall u :: u in r.users <==> u in s.users && u.id != id
    ensures |r.messages| == |s.messages|
    ensures forall i :: 0 <= i < |s.messages| ==>
              && r.messages[i].user != Some(id)
              && r.messages[i].(user := s.messages[i].user) == s.messages[i]
              && (s.messages[i].user != Some(id) ==> r.messages[i] == s.messages[i])
    ensures r.rooms == s.rooms && r.media == s.media && r.recordings == s.recordings
  {
    s.(users := Seqs.Filter(s.users, (u: Account) => u.id != id),
       messages := seq(|s.messages|, i requires 0 <= i < |s.messages| =>
         if s.messages[i].user == Some(id) then s.messages[i].(user := None) else s.messages[i]))
  }

  // ---------------------------------------------------------------------------------------
  // The schema's guarantees survive every write and delete.
  // ---------------------------------------------------------------------------------------

  lemma GetOrCreateRoomValid(s: Store, name: Option<string>, now: int)
    requires Valid(s)
    ensures Valid(GetOrCreateRoom(s, name, now).store)
  {
    var w := GetOrCreateRoom(s, name, now);
    if w.store != s {
      var r := w.result.value;
      assert FindRoom(s.rooms, name.value).None?;
      assert RoomIds(w.store.rooms) == RoomIds(s.rooms) + {r.id};
    }
  }

  /** get_or_create is idempotent: asking again returns the same room and writes nothing,
      and the room returned is the only one with that name. */
  lemma GetOrCreateRoomIdempotent(s: Store, name: string, now: int, later: int)
    requires Valid(s)
    ensures var w := GetOrCreateRoom(s, Some(name), now);
            w.result.Ok? ==>
              && GetOrCreateRoom(w.store, Some(name), later) == w
              && forall x :: x in w.store.rooms && x.name == name ==> x == w.result.value
  {
    var w := GetOrCreateRoom(s, Some(name), now);
    if w.result.Ok? {
      GetOrCreateRoomValid(s, Some(name), now);
      var again := FindRoom(w.store.rooms, name);
      assert again.Some?;
      assert again.value == w.result.value;
    }
  }

  lemma CreateMessageValid(s: Store, room: nat, user: Option<nat>, content: Value, attachments: Value, now: int)
    requires Valid(s)
    ensures Valid(CreateMessage(s, room, user, content, attachments, now).store)
  {
    var w := CreateMessage(s, room, user, content, attachments, now);
    if w.result.Ok? {
      assert MessageIds(w.store.messages) == MessageIds(s.messages) + {w.result.value.id};
    }
  }

  lemma CreateMediaFileValid(s: Store, message: nat, url: Value, mediaType: Value, name: Value, duration: Value, now: int)
    requires Valid(s)
    ensures Valid(CreateMediaFile(s, message, url, mediaType, name, duration, now).store)
  {
  }

  lemma CreateRecordingValid(s: Store, caller: string, receiver: string, roomName: Option<string>, fileUrl: string, duration: Option<int>, now: int)
    requires Valid(s)
    ensures Valid(CreateRecording(s, caller, receiver, roomName, fileUrl, duration, now).store)
  {
  }

  lemma CreateUserValid(s: Store, username: string, isStaff: bool, isSuperuser: bool)
    requires Valid(s)
    ensures Valid(CreateUser(s, username, isStaff, isSuperuser).store)
  {
    var w := CreateUser(s, username, isStaff, isSuperuser);
    if w.result.Ok? {
      assert UserIds(w.store.users) == UserIds(s.users) + {w.result.value.id};
    }
  }

  /** After deleting a message no media file is left pointing at it. */
  lemma DeleteMessageValid(s: Store, id: nat)
    requires Valid(s)
    ensures Valid(DeleteMessage(s, id))
  {
    var r := DeleteMessage(s, id);
    forall f | f in r.media
      ensures f.message in MessageIds(r.messages)
    {
      var m :| m in s.messages && m.id == f.message;
      assert m in r.messages;
    }
  }

  /** After deleting a room no message or media file is left dangling. */
  lemma DeleteRoomValid(s: Store, id: nat)
    requires Valid(s)
    ensures Valid(DeleteRoom(s, id))
  {
    var r := DeleteRoom(s, id);
    forall m | m in r.messages
      ensures m.room in RoomIds(r.rooms)
    {
      var x :| x in s.rooms && x.id == m.room;
      assert x in r.rooms;
    }
    forall f | f in r.media
      ensures f.message in MessageIds(r.messages)
    {
      var m :| m in s.messages && m.id == f.message;
      assert m.room != id;
      assert m in r.messages;
    }
  }

  /** After deleting a user every message survives and none names the deleted user. */
  lemma DeleteUserValid(s: Store, id: nat)
    requires Valid(s)
    ensures Valid(DeleteUser(s, id))
    ensures MessageIds(DeleteUser(s, id).messages) == MessageIds(s.messages)
  {
    var r := DeleteUser(s, id);
    forall m | m in r.messages
      ensures m in r.messages ==> m.user.Some? ==> m.user.value in UserIds(r.users)
      ensures exists k :: 0 <= k < |s.messages| && r.messages[k] == m && m.(user := s.messages[k].user) == s.messages[k]
    {
      var k :| 0 <= k < |r.messages| && r.messages[k] == m;
      var prior := s.messages[k];
      assert prior in s.messages;
      if m.user.Some? {
        assert m.user == prior.user;
        var u :| u in s.users && u.id == m.user.value;
        assert u in r.users;
      }
    }
    forall m | m in s.messages
      ensures m.id in MessageIds(r.messages)
    {
      var k :| 0 <= k < |s.messages| && s.messages[k] == m;
      assert r.messages[k] in r.messages;
    }
  }
}

=== FILE: seqs.dfy ===
/** Sequence helpers behind the store's queries: filtering, ordering by a key, and the
    "newest first, capped" window that `order_by("-key")[:n]` computes. */
module Seqs {
  import opened Base

  /** The elements of `xs` that satisfy `p`, in their original order. */
  function Filter<T>(xs: seq<T>, p: T -> bool): (r: seq<T>)
    ensures |r| <= |xs|
    ensures forall i :: 0 <= i < |r| ==> r[i] in xs && p(r[i])
    ensures forall i :: 0 <= i < |xs| && p(xs[i]) ==> xs[i] in r
  {
    if xs == [] then []
    else if p(xs[0]) then [xs[0]] + Filter(xs[1..], p)
    else Filter(xs[1..], p)
  }

  /** Largest key first. */
  predicate Descending<T>(xs: seq<T>, key: T -> int) {
    forall i, j :: 0 <= i < j < |xs| ==> key(xs[j]) <= key(xs[i])
  }

  /** Smallest key first. */
  predicate Ascending<T>(xs: seq<T>, key: T -> int) {
    forall i, j :: 0 <= i < j < |xs| ==> key(xs[i]) <= key(xs[j])
  }

  /** Puts `x` in front of the first element whose key does not exceed its own. */
  function Insert<T>(x: T, xs: seq<T>, key: T -> int): (r: seq<T>)
    requires Descending(xs, key)
    ensures |r| == |xs| + 1
    ensures r[0] == x || (xs != [] && r[0] == xs[0])
    ensures Descending(r, key)
  {
    if xs == [] || key(xs[0]) <= key(x) then
      [x] + xs
    else
      assert xs == [xs[0]] + xs[1..];
      var rest := Insert(x, xs[1..], key);
      var r := [xs[0]] + rest;
      forall i, j | 0 <= i < j < |r|
        ensures key(r[j]) <= key(r[i])
      {
        if i == 0 {
          assert key(rest[j - 1]) <= key(rest[0]) <= key(xs[0]);
        } else {
          assert r[i] == rest[i - 1] && r[j] == rest[j - 1];
        }
      }
      r
  }

  /** Inserting adds exactly `x`: the result is a permutation of `xs` plus `x`. */
  lemma {:induction false} InsertPermutes<T>(x: T, xs: seq<T>, key: T -> int)
    requires Descending(xs, key)
    ensures multiset(Insert(x, xs, key)) == multiset(xs) + multiset{x}
  {
    if xs == [] || key(xs[0]) <= key(x) {
    } else {
      assert xs == [xs[0]] + xs[1..];
      InsertPermutes(x, xs[1..], key);
      assert Insert(x, xs, key) == [xs[0]] + Insert(x, xs[1..], key);
    }
  }

  /** Insertion sort on `key`, largest first. */
  function SortDesc<T>(xs: seq<T>, key: T -> int): (r: seq<T>)
    ensures multiset(r) == multiset(xs)
    ensures Descending(r, key)
  {
    if xs == [] then []
    else
      assert xs == [xs[0]] + xs[1..];
      var rest := SortDesc(xs[1..], key);
      InsertPermutes(xs[0], rest, key);
      Insert(xs[0], rest, key)
  }

  /** Splitting a sequence splits its multiset: what is not in the prefix is the suffix. */
  lemma SuffixIsRemainder<T>(xs: seq<T>, k: nat)
    requires k <= |xs|
    ensures multiset(xs) - multiset(xs[..k]) == multiset(xs[k..])
  {
    assert xs == xs[..k] + xs[k..];
  }

  /** In a list sorted largest first, nothing after position `k` has a larger key than
      anything before it, counted with multiplicity. */
  lemma PrefixOutranks<T(!new)>(sorted: seq<T>, key: T -> int, k: nat)
    requires Descending(sorted, key)
    requires k <= |sorted|
    ensures forall x, y :: x in sorted[..k] && y in multiset(sorted) - multiset(sorted[..k]) ==> key(y) <= key(x)
  {
    SuffixIsRemainder(sorted, k);
    forall x, y | x in sorted[..k] && y in sorted[k..]
      ensures key(y) <= key(x)
    {
      var i :| 0 <= i < k && sorted[..k][i] == x;
      var j :| 0 <= j < |sorted| - k && sorted[k..][j] == y;
      assert sorted[i] == x && sorted[k + j] == y;
    }
  }

  /** `order_by("-key")[:cap]`: at most `cap` elements, largest key first, and nothing left
      out has a larger key than anything kept. */
  function NewestFirst<T(!new)>(xs: seq<T>, key: T -> int, cap: nat): (r: seq<T>)
    ensures |r| == Min(cap, |xs|)
    ensures Descending(r, key)
    ensures multiset(r) <= multiset(xs)
    ensures forall x, y :: x in r && y in multiset(xs) - multiset(r) ==> key(y) <= key(x)
  {
    var sorted := SortDesc(xs, key);
    assert |sorted| == |multiset(sorted)| == |xs|;
    var k := Min(cap, |xs|);
    PrefixOutranks(sorted, key, k);
    assert sorted == sorted[..k] + sorted[k..];
    assert multiset(sorted[..k]) <= multiset(sorted);
    sorted[..k]
  }

  /** The same elements in the opposite order. */
  function Reverse<T>(xs: seq<T>): (r: seq<T>)
    ensures |r| == |xs|
    ensures forall i :: 0 <= i < |xs| ==> r[i] == xs[|xs| - 1 - i]
    ensures multiset(r) == multiset(xs)
  {
    if xs == [] then []
    else
      assert xs == [xs[0]] + xs[1..];
      Reverse(xs[1..]) + [xs[0]]
  }

  /** Reversing a largest-first list gives a smallest-first list. */
  lemma ReverseDescending<T>(xs: seq<T>, key: T -> int)
    requires Descending(xs, key)
    ensures Ascending(Reverse(xs), key)
  {
    var r := Reverse(xs);
    forall i, j | 0 <= i < j < |r|
      ensures key(r[i]) <= key(r[j])
    {
      assert r[i] == xs[|xs| - 1 - i] && r[j] == xs[|xs| - 1 - j];
    }
  }
}

=== FILE: views.dfy ===
/** The HTTP views over the store: the chat room page with its message history, the staff
    check, and the staff dashboard that creates accounts and lists users, media and call
    recordings. Rendering is reduced to the data handed to the template. */
module Views {
  import opened Base
  import Models
  import Seqs

  /** How many messages the room page shows. */
  const HistoryCap: nat := 50
  /** How many rows each dashboard list shows. */
  const UsersCap: nat := 50
  const MediaCap: nat := 100
  const RecordingsCap: nat := 100

  // ---------------------------------------------------------------------------------------
  // Sort keys
  // ---------------------------------------------------------------------------------------

  function Timestamp(m: Models.Message): int { m.timestamp }
  function AccountId(u: Models.Account): int { u.id }
  function UploadedAt(f: Models.MediaFile): int { f.uploadedAt }
  function CreatedAt(c: Models.CallRecording): int { c.createdAt }

  // ---------------------------------------------------------------------------------------
  // chat_room
  // ---------------------------------------------------------------------------------------

  /** `room.messages.all()`: the messages whose foreign key is the room. */
  function RoomMessages(s: Models.Store, room: nat): (r: seq<Models.Message>)
    ensures |r| <= |s.messages|
    ensures forall m :: m in r <==> m in s.messages && m.room == room
  {
    var r := Seqs.Filter(s.messages, (m: Models.Message) => m.room == room);
    assert forall m :: m in r ==> m in s.messages && m.room == room by {
      forall m | m in r
        ensures m in s.messages && m.room == room
      {
        var i :| 0 <= i < |r| && r[i] == m;
      }
    }
    assert forall m :: m in s.messages && m.room == room ==> m in r by {
      forall m | m in s.messages && m.room == room
        ensures m in r
      {
        var i :| 0 <= i < |s.messages| && s.messages[i] == m;
      }
    }
    r
  }

  /** `order_by("-timestamp")[:50][::-1]`: the newest fifty of the room's messages, shown
      oldest first, the order the model's default ordering also gives. */
  function History(s: Models.Store, room: nat): (r: seq<Models.Message>)
    ensures |r| == Min(HistoryCap, |RoomMessages(s, room)|)
    ensures Seqs.Ascending(r, Timestamp)
    ensures forall m :: m in r ==> m in s.messages && m.room == room
    ensures multiset(r) <= multiset(RoomMessages(s, room))
    ensures forall m, o :: m in r && o in multiset(RoomMessages(s, room)) - multiset(r) ==> o.timestamp <= m.timestamp
  {
    var all := RoomMessages(s, room);
    var newest := Seqs.NewestFirst(all, Timestamp, HistoryCap);
    Seqs.ReverseDescending(newest, Timestamp);
    var r := Seqs.Reverse(newest);
    assert forall m :: m in r ==> m in all by {
      forall m | m in r
        ensures m in all
      {
        assert m in multiset(newest);
      }
    }
    r
  }

  /** Equal-sized multisets, one inside the other, are equal. */
  lemma SubMultisetOfSameSize<T>(a: multiset<T>, b: multiset<T>)
    requires a <= b && |a| == |b|
    ensures a == b
  {
    assert |b - a| == |b| - |a|;
    assert b - a == multiset{};
    assert b == a + (b - a);
  }

  /** A room with at most fifty messages shows all of them. */
  lemma {:induction false} ShortHistoryIsComplete(s: Models.Store, room: nat)
    requires |RoomMessages(s, room)| <= HistoryCap
    ensures multiset(History(s, room)) == multiset(RoomMessages(s, room))
  {
    var h := History(s, room);
    var all := RoomMessages(s, room);
    assert |multiset(h)| == |h| == |all| == |multiset(all)|;
    SubMultisetOfSameSize(multiset(h), multiset(all));
  }

  datatype RoomPage =
    | LoginRedirect
    | RoomServerError
    | Room(roomName: string, messages: seq<Models.Message>)

  datatype RoomView = RoomView(store: Models.Store, page: RoomPage)

  /** `chat_room`: an anonymous visitor is sent to the login page; anyone else gets or
      creates the room named in the URL and sees its history. A name the column cannot hold
      makes the insert fail. */
  function ChatRoomView(s: Models.Store, viewer: Option<Models.Account>, roomName: string, now: int): (r: RoomView)
    ensures viewer.None? ==> r == RoomView(s, LoginRedirect)
    ensures viewer.Some? ==>
              (r.page.Room? <==> Models.FindRoom(s.rooms, roomName).Some? || |roomName| <= Models.RoomNameMax)
    ensures r.page.RoomServerError? ==> r.store == s
    ensures r.page.Room? ==>
              && r.page.roomName == roomName
              && Models.FindRoom(r.store.rooms, roomName).Some?
              && |r.page.messages| <= HistoryCap
              && Seqs.Ascending(r.page.messages, Timestamp)
              && (forall m :: m in r.page.messages ==> m in r.store.messages && m.room == Models.FindRoom(r.store.rooms, roomName).value.id)
              && r.page.messages == History(r.store, Models.FindRoom(r.store.rooms, roomName).value.id)
    ensures r.store.messages == s.messages && r.store.users == s.users && r.store.media == s.media
  {
    if viewer.None? then RoomView(s, LoginRedirect)
    else
      var w := Models.GetOrCreateRoom(s, Some(roomName), now);
      if w.result.Err? then RoomView(s, RoomServerError)
      else
        assert Models.FindRoom(w.store.rooms, roomName) == Some(w.result.value) by {
          if w.store != s {
            assert forall x :: x in s.rooms ==> x.name != roomName;
          }
        }
        RoomView(w.store, Room(roomName, History(w.store, w.result.value.id)))
  }

  /** Opening a room page twice creates the room at most once: the second visit leaves the
      store as the first left it and shows the same history. */
  lemma ChatRoomViewIdempotent(s: Models.Store, viewer: Models.Account, roomName: string, now: int, later: int)
    requires Models.Valid(s)
    ensures var first := ChatRoomView(s, Some(viewer), roomName, now);
            var second := ChatRoomView(first.store, Some(viewer), roomName, later);
            second.store == first.store && second.page == first.page
  {
    var w := Models.GetOrCreateRoom(s, Some(roomName), now);
    if w.result.Ok? {
      Models.GetOrCreateRoomIdempotent(s, roomName, now, later);
      Models.GetOrCreateRoomValid(s, Some(roomName), now);
      var w2 := Models.GetOrCreateRoom(w.store, Some(roomName), later);
      assert w2.result.value == w.result.value by {
        assert w2.result.value in w.store.rooms && w2.result.value.name == roomName;
        assert w.result.value in w.store.rooms && w.result.value.name == roomName;
      }
    }
  }

  // ---------------------------------------------------------------------------------------
  // is_admin and admin_create_user
  // ---------------------------------------------------------------------------------------

  /** `is_admin`: the staff flag; an anonymous visitor is never staff. */
  function IsAdmin(viewer: Option<Models.Account>): (r: bool)
    ensures r <==> viewer.Some? && viewer.value.isStaff
  {
    viewer.Some? && viewer.value.isStaff
  }

  /** A form that passed validation: the cleaned fields the view reads. */
  datatype UserForm = UserForm(username: string, password: string, isStaff: bool, isSuperuser: bool)

  datatype AdminPage =
    | AdminLoginRedirect
    | CreatedRedirect
    | AdminServerError
    | Dashboard(users: seq<Models.Account>, media: seq<Models.MediaFile>, recordings: seq<Models.CallRecording>)

  datatype AdminView = AdminView(store: Models.Store, page: AdminPage)

  /** The three lists the dashboard renders, newest first and capped. */
  function DashboardOf(s: Models.Store): (r: AdminPage)
    ensures r.Dashboard?
    ensures |r.users| == Min(UsersCap, |s.users|)
    ensures |r.media| == Min(MediaCap, |s.media|)
    ensures |r.recordings| == Min(RecordingsCap, |s.recordings|)
    ensures Seqs.Descending(r.users, AccountId)
    ensures Seqs.Descending(r.media, UploadedAt)
    ensures Seqs.Descending(r.recordings, CreatedAt)
    ensures multiset(r.users) <= multiset(s.users)
    ensures multiset(r.media) <= multiset(s.media)
    ensures multiset(r.recordings) <= multiset(s.recordings)
    ensures forall u, v :: u in r.users && v in multiset(s.users) - multiset(r.users) ==> v.id <= u.id
    ensures forall f, g :: f in r.media && g in multiset(s.media) - multiset(r.media) ==> g.uploadedAt <= f.uploadedAt
    ensures forall c, d :: c in r.recordings && d in multiset(s.recordings) - multiset(r.recordings) ==> d.createdAt <= c.createdAt
  {
    Dashboard(
      Seqs.NewestFirst(s.users, AccountId, UsersCap),
      Seqs.NewestFirst(s.media, UploadedAt, MediaCap),
      Seqs.NewestFirst(s.recordings, CreatedAt, RecordingsCap))
  }

  /** `admin_create_user`. Non-staff visitors are redirected to the login page. A POST whose
      form validates creates the account, then sets the two flags, then redirects back; any
      other request (a GET, or a POST whose form fails validation) renders the dashboard. */
  function AdminCreateUser(s: Models.Store, viewer: Option<Models.Account>, verb: string, form: Option<UserForm>): (r: AdminView)
    ensures !IsAdmin(viewer) ==> r == AdminView(s, AdminLoginRedirect)
    ensures r.page.CreatedRedirect? <==>
              && IsAdmin(viewer) && verb == "POST" && form.Some?
              && 0 < |form.value.username| <= Models.UsernameMax
              && (forall u :: u in s.users ==> u.username != form.value.username)
    ensures r.page.CreatedRedirect? ==>
              && |r.store.users| == |s.users| + 1
              && s.users <= r.store.users
              && var u := r.store.users[|s.users|];
                 u.username == form.value.username && u.isStaff == form.value.isStaff && u.isSuperuser == form.value.isSuperuser
    ensures !r.page.CreatedRedirect? ==> r.store == s
    ensures r.page.AdminServerError? ==> IsAdmin(viewer) && verb == "POST" && form.Some?
    ensures r.page.Dashboard? ==> r.page == DashboardOf(s) && IsAdmin(viewer) && (verb != "POST" || form.None?)
    ensures IsAdmin(viewer) && !(verb == "POST" && form.Some?) ==> r == AdminView(s, DashboardOf(s))
    ensures IsAdmin(viewer) && verb == "POST" && form.Some? && !r.page.CreatedRedirect? ==> r == AdminView(s, AdminServerError)
    ensures && r.store.rooms == s.rooms && r.store.messages == s.messages && r.store.media == s.media
            && r.store.recordings == s.recordings
  {
    if !IsAdmin(viewer) then AdminView(s, AdminLoginRedirect)
    else if verb == "POST" && form.Some? then
      var w := Models.CreateUser(s, form.value.username, form.value.isStaff, form.value.isSuperuser);
      if w.result.Err? then AdminView(s, AdminServerError)
      else AdminView(w.store, CreatedRedirect)
    else AdminView(s, DashboardOf(s))
  }

  /** Only staff change anything through the dashboard, and what they change is one new
      account; the store keeps the schema's guarantees. */
  lemma AdminCreateUserValid(s: Models.Store, viewer: Option<Models.Account>, verb: string, form: Option<UserForm>)
    requires Models.Valid(s)
    ensures var r := AdminCreateUser(s, viewer, verb, form);
            && Models.Valid(r.store)
            && (r.store != s ==> IsAdmin(viewer) && verb == "POST")
  {
    if IsAdmin(viewer) && verb == "POST" && form.Some? {
      Models.CreateUserValid(s, form.value.username, form.value.isStaff, form.value.isSuperuser);
    }
  }
}
